=== FILE: README.md ===
# Ishmael Insights API client and snapshot export, in Dafny

This project models the Python client of the Ishmael Insights public API
(`IshmaelInsightsAPI` in `src/ishmael_insights_api/client.py`) and the
snapshot exporter `examples/export_cbb_snapshot_csv.py` that uses it. It
proves properties of the model.

The client side covers these parts:

- the configuration: the base URL loses its trailing slashes and gets the
  `/api/v1` root;
- the URL and query parameters `_request` sends;
- the mapping from an HTTP response to a payload or an
  `IshmaelInsightsAPIError`;
- the `_csv` list serialiser;
- the argument checks of `get_game` and `get_team`;
- the `_iter_items` cursor pagination.

The exporter side covers these parts:

- the `.env` reader;
- the date taken from a game slug, and the target-day filter with its slug
  fallback;
- the `by_cid` de-duplication of games;
- the set of condition ids that is queried;
- the per-condition-id prediction fetch and its (condition id, outcome)
  de-duplication;
- the field-name order of every CSV file written.

Modules:

- `Outcomes`: `Option` and `Result`.
- `Text`: Python's `strip`, `lstrip`, `rstrip` and `str.isspace`; `join`,
  `split` and `find` for one character; `str(int)`.
- `Json`: decoded JSON values. A dict is an ordered sequence of fields.
  The module also gives `dict.get`, truthiness and `str()`.
- `Dedup`: the "keep the first element of each key" loop, which both
  `_fetch_predictions_for_condition_ids` and `_write_csv` run.
- `Order`: Python's string order, and `sorted` over a set of strings.
- `Client`: the client object.
- `Pagination`: `_iter_items`.
- `EnvFile`: `_load_env_file`.
- `Index`: a dict filled by `d[key(x)] = x` over a list. A key keeps its
  first position and takes the value of its last element.
- `Export`: the exporter.

The HTTP session is modelled as a function from the request sent to the
response received. The calendar day of a `game_time` in the chosen time zone
is also a function parameter.

## Model

| member | source | states |
|---|---|---|
| Client.NewConfig | src/ishmael_insights_api/client.py:50-51 | The key is kept. The base URL kept is a prefix of the one given. Only `/` characters were removed, and the result does not end in `/`. |
| Client.DefaultConfig | src/ishmael_insights_api/client.py:12-59 | Without a `base_url` the client keeps its key, uses `https://ishmaelinsights.com` unchanged, and its API root is `https://ishmaelinsights.com/api/v1`. |
| Client.ApiRoot | src/ishmael_insights_api/client.py:55-59 | The root always ends with `/api/v1` and starts with the base URL. The suffix is appended exactly when the base URL does not already end with it. |
| Client.ApiRootOfVersionedBase | src/ishmael_insights_api/client.py:51-59 | A base URL that ends with `/api/v1` plus any number of slashes gives that root: the suffix is never doubled. |
| Client.Url | src/ishmael_insights_api/client.py:76 | The URL is the API root, one `/`, then a suffix of the path. Everything the path lost is `/`, and the suffix does not start with `/`. |
| Client.UrlIgnoresLeadingSlash | src/ishmael_insights_api/client.py:76 | Calling a path with or without a leading `/` requests the same URL. |
| Client.Headers | src/ishmael_insights_api/client.py:61-66 | Exactly three headers are sent: the client's key under `x-api-key`, the fixed user agent, and `Accept: application/json`. |
| Client.Transmitted | src/ishmael_insights_api/client.py:81 | A parameter is sent exactly when it was given with a value other than `None`, and its value is unchanged. |
| Client.TransmittedIdempotent | src/ishmael_insights_api/client.py:81 | Filtering twice equals filtering once. No `None` value is ever sent. |
| Client.RawWrapper | src/ishmael_insights_api/client.py:102 | The wrapper has exactly the keys `ok` and `raw`, in that order; `ok` is `True` and `raw` is the payload. |
| Client.ErrorMessage | src/ishmael_insights_api/client.py:86-95 | For a dict body the message is its truthy `error`, else its truthy `message`, else the reason. A JSON body that is not a dict gives the reason. A body that is not JSON gives the first 200 characters of its text, or the reason when the text is blank. |
| Client.MapResponse | src/ishmael_insights_api/client.py:86-102 | It is an error exactly when the status is 400 or more, and the error carries that status and the payload. For a dict body the message is `error`, else `message`, else the reason. For a non-dict JSON body it is the reason. For a non-JSON body it is the first 200 characters of the text, or the reason when the text is blank. A success is always a dict: the payload itself, or the `ok`/`raw` wrapper. |
| Client.ErrorFieldBecomesMessage | src/ishmael_insights_api/client.py:89-91 | An error body `{"error": "bad key", ...}` raises with message "bad key" and the body as payload. |
| Client.PlainTextErrorBody | src/ishmael_insights_api/client.py:92-98 | A non-blank, non-JSON error body gives a message of the text cut to 200 characters, and the text is the payload. |
| Client.Call | src/ishmael_insights_api/client.py:68-102 | `_request` sends one request with the given verb, the URL `Url(config, path)`, the client's headers and exactly the non-`None` parameters, and its result is `MapResponse` of the session's answer to that request; every success is a dict. `_iter_items` and `export_cbb_snapshot_csv`'s per-id query go through it. |
| Client.NonEmpty | src/ishmael_insights_api/client.py:35 | The filter keeps exactly the non-empty pieces, in order, and keeps none exactly when every piece is empty. |
| Client.NonEmptyAppend | src/ishmael_insights_api/client.py:35 | The filter keeps the input order: the pieces kept from `a + b` are those kept from `a` followed by those kept from `b`, and a single piece is kept exactly when it is not blank. |
| Client.CsvPartsAppend | src/ishmael_insights_api/client.py:35 | The pieces of `a + b` are the pieces of `a` followed by those of `b`, and one value contributes its stripped rendering exactly when that is not blank: the pieces are the non-blank renderings in the order of the values. |
| Client.Csv | src/ishmael_insights_api/client.py:29-36 | `None` stays `None`. A string becomes its strip, or `None` when blank. An iterable gives `None` exactly when every stripped rendering is blank, and otherwise the kept pieces (in value order, by CsvPartsAppend) joined with `,`. A result is never the empty string. |
| Client.CsvPartsEmpty | src/ishmael_insights_api/client.py:35-36 | No piece is kept exactly when every value's stripped rendering is blank. |
| Client.CsvPartsKeepAbsent | src/ishmael_insights_api/client.py:35 | Stripping adds no character: a character no value renders with is in no kept piece. |
| Client.CsvSplitRoundTrip | src/ishmael_insights_api/client.py:35-36 | When no value renders with a comma, splitting the joined string on `,` gives back exactly the kept pieces, in order. |
| Client.GameRequest | src/ishmael_insights_api/client.py:240-254 | It is a ValueError, with `get_game`'s message, exactly when `condition_id` is falsy and one of league, game_date, team_a_id, team_b_id is `None`. Otherwise it is a GET of `/game` whose parameters are among the five. Each is sent exactly when it is not `None`: `condition_id` and `league` as given (a falsy `""` included), `game_date` and the team ids as strings. Every request carries the client's headers. |
| Client.TeamRequest | src/ishmael_insights_api/client.py:293-301 | It is a ValueError, with `get_team`'s message, exactly when team_id, name and abbreviation are all falsy. Otherwise it is a GET of `/team` whose parameters are among the four. Each is sent exactly when it is not `None`: the team id as a string, and name, abbreviation and league as given. Every request carries the client's headers. |
| Client.TeamIdZeroRejected | src/ishmael_insights_api/client.py:293-294 | `team_id=0` alone is rejected, because 0 is falsy. |
| Client.PredictionsRequest | src/ishmael_insights_api/client.py:145-155 | `get_predictions` is a GET of `/predictions` with at most its eight parameters. Each is sent exactly when not `None`: `team_id` as a string, `tag` as its `_csv` serialisation, the others as given. The request carries the client's headers. |
| Pagination.Wrap | src/ishmael_insights_api/client.py:121-125 | Every yielded item is a dict: a dict item as is, anything else as `{"value": item}`. |
| Pagination.WrapAll | src/ishmael_insights_api/client.py:121-125 | The page yields one item per element, each wrapped, in order. |
| Pagination.PageRequest | src/ishmael_insights_api/client.py:114-117 | Each page is a GET of the endpoint. `limit` is always the page limit. `cursor` is sent exactly when it is not `None`. The other parameters are the base parameters that are not `None`. Each page request carries the client's headers. |
| Pagination.PageParamsSent | src/ishmael_insights_api/client.py:114-116 | The same, for the parameter map after filtering. |
| Pagination.StepOf | src/ishmael_insights_api/client.py:117-128 | A raised request fails the iteration with its error. A page without an `items` list ends it with nothing. A page with one yields the wrapped items and continues exactly when `next_cursor` is truthy, with that cursor. |
| Pagination.PagesSound | src/ishmael_insights_api/client.py:117-128 | Real pages only yield dicts and only continue on a truthy cursor. |
| Pagination.IterItems | src/ishmael_insights_api/client.py:112-128 | The first request carries the caller's cursor. At most `fuel` requests are made. The drain runs out of fuel exactly when every allowed request was made and the last page said to continue. |
| Pagination.DrainFollowsCursors | src/ishmael_insights_api/client.py:112-128 | The i-th request carries the cursor handed on by the (i-1)-th page. Every page but the last said to continue. |
| Pagination.DrainItemsArePages | src/ishmael_insights_api/client.py:121-125 | The items yielded are the items of the pages visited, concatenated in order. |
| Pagination.DrainStopsAtLastPage | src/ishmael_insights_api/client.py:117-128 | A drain that ends by itself ends at a page that raised, had no `items` list, or had a falsy `next_cursor`. |
| Pagination.SoundDrain | src/ishmael_insights_api/client.py:119-128 | Over well-formed pages the drain yields only dicts, and every request after the first carries a truthy cursor. |
| Pagination.ClientDrainSound | src/ishmael_insights_api/client.py:112-128 | The same for a drain of the real client through its session. |
| Pagination.MoreFuelSameDrain | src/ishmael_insights_api/client.py:113 | Fuel is only a bound: once a drain ends by itself, more fuel changes nothing. |
| Pagination.DrainWith | src/ishmael_insights_api/client.py:112-128 | The `while True` loop computes exactly the drain `IterItems` defines. |
| Pagination.DrainLoop | src/ishmael_insights_api/client.py:104-128 | Draining the client gives that drain's items, stop reason and one request per page. |
| Text.Strip | src/ishmael_insights_api/client.py:33 | `strip()` leaves a contiguous slice of the string: everything removed before and after it is whitespace, and the slice neither starts nor ends with whitespace. |
| Text.StripBy | examples/export_cbb_snapshot_csv.py:32 | `strip(chars)` leaves a contiguous slice of the string: everything removed before and after it is in `chars`, the slice neither starts nor ends with such a character, and it is `""` exactly when every character is one. |
| Text.StripsToIsStripBy | examples/export_cbb_snapshot_csv.py:32 | These properties determine the strip: any string that is such a slice with kept ends is the strip. |
| Text.StripChar | examples/export_cbb_snapshot_csv.py:32 | `strip(c)` is the slice of the string left once the runs of `c` at both ends are removed, and it neither starts nor ends with `c`. |
| Text.StripByUnchanged | examples/export_cbb_snapshot_csv.py:32 | A string that starts and ends with a kept character is its own strip. |
| Text.StripIdempotent | src/ishmael_insights_api/client.py:33 | Stripping twice equals stripping once. |
| Text.StripByEnclosed | examples/export_cbb_snapshot_csv.py:32 | Stripping a value enclosed in one dropped character on each side gives back the value. |
| Text.SplitJoin | src/ishmael_insights_api/client.py:36 | `split` on the separator undoes `join` when no part contains the separator. |
| Order.Insert | examples/export_cbb_snapshot_csv.py:87 | Inserting a new string keeps the sequence strictly increasing, adds exactly that string, and grows the length by one. |
| Order.LessTotal | examples/export_cbb_snapshot_csv.py:87 | Any two distinct strings are ordered one way. |
| Order.LessTransitive | examples/export_cbb_snapshot_csv.py:87 | The string order is transitive. |
| Order.SortedUnique | examples/export_cbb_snapshot_csv.py:87 | Two strictly increasing sequences with the same elements are equal, so `sorted` of a set does not depend on its iteration order. |
| Dedup.DedupByKeys | examples/export_cbb_snapshot_csv.py:92-96 | The kept elements have exactly the keys of the input. |
| Dedup.DedupByFirstSeen | examples/export_cbb_snapshot_csv.py:107-114 | Each kept element is the first input element with its key, and kept elements follow the order in which their keys first occur. |
| Dedup.DedupByDistinct | examples/export_cbb_snapshot_csv.py:93-95 | No two kept elements share a key. |
| Dedup.DedupExtend | examples/export_cbb_snapshot_csv.py:89-96 | The inner loop, with its `seen` set, extends the de-duplication of what came before by one batch of items. |
| EnvFile.Unquote | examples/export_cbb_snapshot_csv.py:32 | The value is the raw text stripped of whitespace, the result stripped of `"`, and that result stripped of `'`, each stage removing characters at both ends only. It is no longer than the raw text and has no `'` at either end. |
| EnvFile.Assignment | examples/export_cbb_snapshot_csv.py:30-32 | The line is cut at an `=` with no `=` before it. The key is the stripped text before that `=`, so it holds no `=` and has no surrounding whitespace, and the value is the unquoted text after it. |
| EnvFile.AssignmentAt | examples/export_cbb_snapshot_csv.py:30-32 | The line is split at its first `=`: a key without `=` is read back stripped, and everything after that `=` becomes the value. |
| EnvFile.ParseEnvLine | examples/export_cbb_snapshot_csv.py:27-32 | A line is skipped exactly when, once stripped, it is blank, starts with `#` or has no `=`. Otherwise it is the assignment of the stripped line. |
| EnvFile.StripAssignmentLine | examples/export_cbb_snapshot_csv.py:27 | A line that starts with a key and does not end in whitespace is its own strip. |
| EnvFile.ParseStrippedLine | examples/export_cbb_snapshot_csv.py:27-30 | A stripped, non-comment line holding `=` is an assignment. |
| EnvFile.ParseAssignmentLine | examples/export_cbb_snapshot_csv.py:27-30 | `k=w` with a plain key is an assignment. |
| EnvFile.ParseAssignment | examples/export_cbb_snapshot_csv.py:27-32 | `k=w` with a plain key yields the key `k` and the unquoted `w`. |
| EnvFile.UnquotePlain | examples/export_cbb_snapshot_csv.py:32 | A value without surrounding whitespace or quotes is kept as written. |
| EnvFile.ParsePlain | examples/export_cbb_snapshot_csv.py:26-33 | Round trip: writing `k=v` and reading it back gives `(k, v)`. |
| EnvFile.UnquoteDoubleQuoted | examples/export_cbb_snapshot_csv.py:32 | A double-quoted plain value is read back without its quotes. |
| EnvFile.UnquoteSingleQuoted | examples/export_cbb_snapshot_csv.py:32 | A single-quoted plain value is read back without its quotes. |
| EnvFile.ParseDoubleQuoted | examples/export_cbb_snapshot_csv.py:26-33 | Round trip: `k="v"` reads back as `(k, v)`. |
| EnvFile.ParseSingleQuoted | examples/export_cbb_snapshot_csv.py:26-33 | Round trip: `k='v'` reads back as `(k, v)`. |
| EnvFile.Entries | examples/export_cbb_snapshot_csv.py:26-29 | A file gives at most one entry per line. |
| EnvFile.EntriesOfLine | examples/export_cbb_snapshot_csv.py:26-32 | One line gives its assignment, or nothing when it is skipped. |
| EnvFile.EntriesAppend | examples/export_cbb_snapshot_csv.py:26-32 | The entries of a file are those of its first lines followed by those of the rest, so entries follow the line order of the file. |
| EnvFile.FirstValueOfLines | examples/export_cbb_snapshot_csv.py:26-33 | The first entry for a key comes from the first line that sets the key. No entry for a key means no line sets it. |
| EnvFile.FirstValue | examples/export_cbb_snapshot_csv.py:33 | A key has a first value exactly when some entry sets it. |
| EnvFile.SetDefault | examples/export_cbb_snapshot_csv.py:33 | `setdefault` adds the key, never changes an existing value, and sets a new key to the entry's value. |
| EnvFile.ApplyEntries | examples/export_cbb_snapshot_csv.py:26-33 | After the loop the environment holds its old keys plus the file's keys. Existing values are untouched, and a new key takes the value of its first line in the file. |
| EnvFile.LoadEnv | examples/export_cbb_snapshot_csv.py:23-33 | Loading a file never overrides a variable already set. It adds a key exactly when some line of the file sets it, and a new key takes the value of the first line that sets it. |
| EnvFile.ApplyEntriesKnown | examples/export_cbb_snapshot_csv.py:33 | Entries whose keys are all set already change nothing. |
| EnvFile.LoadEnvIdempotent | examples/export_cbb_snapshot_csv.py:23-33 | Loading the same file twice equals loading it once. |
| Export.SlugDate | examples/export_cbb_snapshot_csv.py:55-60 | There is a date exactly when the stripped slug ends in ten characters of the form `dddd-dd-dd`, and then the date is those characters. A missing, `None` or blank slug gives none. |
| Export.SlugDateOfSuffix | examples/export_cbb_snapshot_csv.py:55-60 | A slug ending in a date gives that date, whatever comes before it. |
| Export.StrippedEndsWithDate | examples/export_cbb_snapshot_csv.py:56 | Stripping keeps a trailing date. |
| Export.SlugDateShort | examples/export_cbb_snapshot_csv.py:55-60 | A stripped slug shorter than a date gives none. |
| Export.GameOnTargetDay | examples/export_cbb_snapshot_csv.py:63-75 | A game is kept exactly when its `game_time` is present and falls on the target day, or its slug's date is the target date. |
| Export.SlugFallbackKeeps | examples/export_cbb_snapshot_csv.py:74-75 | A slug ending in the target date keeps the game, whatever its `game_time` says. |
| Export.NoGameTimeUsesSlug | examples/export_cbb_snapshot_csv.py:65-75 | Without a `game_time`, only the slug decides. |
| Export.NonDateTargetNeedsGameTime | examples/export_cbb_snapshot_csv.py:63-75 | A target that is not a date matches no slug. |
| Export.Dicts | examples/export_cbb_snapshot_csv.py:89-91 | Every element kept is a dict, and there are no more of them than elements. |
| Export.DictsMembers | examples/export_cbb_snapshot_csv.py:89-91 | The elements kept are exactly the dict elements. |
| Export.DictsAppend | examples/export_cbb_snapshot_csv.py:89-91 | The dicts of `a + b` are those of `a` followed by those of `b`, and one element is kept exactly when it is a dict, so the dicts keep their order and multiplicity. |
| Export.ItemsOf | examples/export_cbb_snapshot_csv.py:89-91 | A missing `items` gives nothing, and a list gives its dicts. A dict or a string yields no dict. `None`, a bool or a number raises. |
| Export.ConditionQuerySends | examples/export_cbb_snapshot_csv.py:88 | Each id is queried as a GET of `/predictions` with exactly `time`, `condition_id` and `limit=100`. |
| Export.ConditionParamsSent | src/ishmael_insights_api/client.py:145-155 | Of the eight `get_predictions` parameters, those left `None` are not sent. |
| Export.Collect | examples/export_cbb_snapshot_csv.py:87-89 | The fetch fails exactly when some query fails, and then with the error of the first failing query. |
| Export.CollectConcatenates | examples/export_cbb_snapshot_csv.py:87-89 | When every query succeeds, the items are the concatenated pages in query order. |
| Export.CollectStopsAtError | examples/export_cbb_snapshot_csv.py:87-89 | The ids after a failed query do not change the error. |
| Export.SortedConditionIds | examples/export_cbb_snapshot_csv.py:87 | The ids queried are strictly increasing and are exactly the non-empty given ids. |
| Export.FetchAll | examples/export_cbb_snapshot_csv.py:84-98 | The loops return the first error, or the first item of each (condition id, outcome) pair among all the items fetched. |
| Export.FetchPredictions | examples/export_cbb_snapshot_csv.py:78-98 | All of `_fetch_predictions_for_condition_ids`: the sorted non-empty ids are queried through the client, and the result is as for FetchAll. |
| Export.AllKeysCover | examples/export_cbb_snapshot_csv.py:110-111 | The collected keys are exactly the keys some row has. |
| Export.FieldNamesCover | examples/export_cbb_snapshot_csv.py:107-114 | A name is a CSV field name exactly when some row has that key. |
| Export.FieldNamesOrdered | examples/export_cbb_snapshot_csv.py:107-114 | No field name repeats, and names appear in the order in which their keys first occur. |
| Export.CsvHeader | examples/export_cbb_snapshot_csv.py:103-114 | No rows gives no header (the file is empty). Otherwise the loops with their `seen` set compute exactly the field names. |
| Export.CidOfTruthy | examples/export_cbb_snapshot_csv.py:179-193 | A game has a non-empty id only when its `condition_id` is truthy, and then the `by_cid` key and the queried id are the same string. |
| Export.DedupGamesDistinct | examples/export_cbb_snapshot_csv.py:177-182 | When some game has a condition id, every game kept has one and no two share it. When no game has an id, the games are left as they were. |
| Export.DedupGamesFromInput | examples/export_cbb_snapshot_csv.py:177-182 | Every game kept is an input game. |
| Export.DedupGamesKeySet | examples/export_cbb_snapshot_csv.py:177-182 | `by_cid` loses no condition id and adds none. |
| Export.QueriedIdsAreGameCids | examples/export_cbb_snapshot_csv.py:177-193 | Apart from a blank id, the ids queried are exactly the keys `by_cid` files games under. |
| Export.QueriedIdsSurviveDedup | examples/export_cbb_snapshot_csv.py:177-193 | The ids queried after `by_cid` are the condition ids of the games before it, blank aside. |
| Index.KeySetAppend | examples/export_cbb_snapshot_csv.py:179-181 | One more element adds its key, unless the key is empty. |
| Index.NonEmptyKeysSet | examples/export_cbb_snapshot_csv.py:179-181 | The listed non-empty keys are exactly the key set. |
| Index.IndexBy | examples/export_cbb_snapshot_csv.py:177-181 | The dict's keys are exactly the non-empty keys, its key order has no repeats, and each entry is filed under its own key. |
| Index.IndexOrder | examples/export_cbb_snapshot_csv.py:177-181 | The dict's key order is the order in which non-empty keys first occur. |
| Index.IndexLastWins | examples/export_cbb_snapshot_csv.py:179-181 | The entry for a key is the last element with that key. |
| Index.IndexValuesFromInput | examples/export_cbb_snapshot_csv.py:179-181 | Every entry is an input element. |
| Index.ValuesOrShape | examples/export_cbb_snapshot_csv.py:177-182 | Without a non-empty key the input is returned. Otherwise there is exactly one element per distinct non-empty key, and the elements come in the order in which their keys first occur in the input, as `by_cid` keeps its keys. |
| Index.ValuesOrKeepsLast | examples/export_cbb_snapshot_csv.py:177-182 | The last element with each non-empty key is kept; for the games, the last game with each condition id. |
| Index.ValuesOrFromInput | examples/export_cbb_snapshot_csv.py:182 | The kept elements are input elements. |
| Index.ValuesOrKeySet | examples/export_cbb_snapshot_csv.py:177-182 | The kept elements carry exactly the input's non-empty keys. |

## Left out

- Floating-point values are not modelled. The JSON type has no floats, so `min_volume` and a float `time` are absent.
- `str()` of a list or dict renders elements in a repr-like form, without Python's string escaping.
- Export.AllKeys: a row that is not a dict contributes no keys, where Python's `row.keys()` would raise AttributeError; every caller passes only dicts.
- Text: strings are sequences of Unicode scalar values; a lone surrogate that Python's `str` can hold (for example from `json.loads('"\ud800"')`) is not representable.
- Export.SlugDate: `\d` is read as an ASCII digit. Python's `re` also matches other Unicode decimal digits.
- `_isoish` and `_unixish` are left out. Dates and datetimes are not modelled, so values reach the request already converted.
- `get_games`, `iter_games`, `get_teams`, `iter_teams` and `iter_predictions` are not modelled as functions of their own. `Pagination` models `_iter_items` for any base parameters, and `get_predictions`, `get_game` and `get_team` are modelled.
- The base parameters of `get_games` and `iter_games` are left out: they pass `start_date` and `end_date` through `_isoish`, which is left out, and `team_ids` through `_csv`, which `Client.Csv` models.
- The base parameters of `iter_predictions` are those of `get_predictions` without `cursor` and `limit`. The exporter's `main` drains `iter_teams`, `iter_games` and `iter_predictions` with `list(...)`; the model takes the games and predictions it gets as inputs.
- The JSON type lets an object repeat a key, and `Lookup` and `Get` read its first field with that key. Python's `json.loads` keeps the last duplicate instead, so the model matches Python only on bodies whose keys are distinct.
- `auth_check` and the `json_body` of `_request` are left out: the exporter uses neither.
- The HTTP session, the timeout, `response.json()` decoding and the default `requests.Session()` are left out. The session is a function parameter, and a response carries its decoded body or a "not JSON" marker.
- `_iter_items` is a lazy generator. The model drains it eagerly, and a `fuel` bound on the number of requests replaces the unbounded `while True`. Pagination.MoreFuelSameDrain shows that a larger bound changes nothing once the iteration ends by itself.
- Time zones, `datetime.fromtimestamp` and `date.fromisoformat` are left out. The local day of a `game_time` is the `localDay` parameter, and a conversion that raises maps to `None`.
- `_resolve_timezone`, `_resolve_target_date`, the reading of environment variables in `main`, and the query window of `main` (lines 143-146) are left out. They are clock and time-zone arithmetic.
- File I/O is left out: `path.exists()`, `read_text`, `mkdir`, and the CSV writing by `csv.DictWriter`. The `.env` file is its list of lines after `splitlines()`. Only the header order of the CSV is modelled.
- `os.environ` is a map from strings to strings. The host's rules on environment keys (such as an empty key raising) are not modelled.
- `print` and the `python-dotenv` branch of `main` are left out.
- `example.py` is not part of this model. Its `get_games` call passes arguments that `get_games` does not accept.
- `errors.py` is not part of this model beyond its three fields, which the `ApiError` datatype carries.

=== FILE: client.dfy ===
/** The client object of `src/ishmael_insights_api/client.py`: its
    configuration, the URL and query parameters `_request` sends, the mapping
    from an HTTP response to a result or an `IshmaelInsightsAPIError`, the
    `_csv` list serialiser, and the argument checks of `get_game` and
    `get_team`. The HTTP session is a function from the request sent to the
    response received. */
module Client {
  import opened Outcomes
  import opened Text
  import opened Json

  const DefaultBaseUrl: string := "https://ishmaelinsights.com"
  const VersionSuffix: string := "/api/v1"
  const UserAgent: string := "ishmael-insights-api-python/0.2.0"

  /** `IshmaelInsightsAPIError`: status code, message and the decoded payload. */
  datatype ApiError = ApiError(status: int, message: string, payload: Json)

  /** What `response.json()` gave: a value, or an exception because the body
      is not JSON. */
  datatype Body = Decoded(value: Json) | NotJson

  /** The parts of a `requests.Response` that `_request` reads. */
  datatype Response = Response(status: int, reason: string, body: Body, text: string)

  /** A request as handed to the session. */
  datatype Request = Request(
    verb: string,
    url: string,
    headers: map<string, string>,
    params: map<string, Json>)

  /** The client's fixed configuration; the timeout is left out. */
  datatype Config = Config(apiKey: string, baseUrl: string)

  /** `IshmaelInsightsAPI(api_key, base_url=...)`: the base URL is kept with
      its trailing slashes removed. */
  function NewConfig(apiKey: string, baseUrl: string): (c: Config)
    ensures c.apiKey == apiKey
    ensures c.baseUrl <= baseUrl
    ensures forall i :: |c.baseUrl| <= i < |baseUrl| ==> baseUrl[i] == '/'
    ensures c.baseUrl != [] ==> c.baseUrl[|c.baseUrl| - 1] != '/'
  {
    Config(apiKey, RStripChar(baseUrl, '/'))
  }

  /** `IshmaelInsightsAPI(api_key)`: the default base URL, whose API root
      is the public versioned root. */
  function DefaultConfig(apiKey: string): (c: Config)
    ensures c.apiKey == apiKey
    ensures c.baseUrl == DefaultBaseUrl
    ensures ApiRoot(c) == "https://ishmaelinsights.com/api/v1"
  {
    var c := NewConfig(apiKey, DefaultBaseUrl);
    assert DefaultBaseUrl[|DefaultBaseUrl| - 1] == 'm';
    assert |c.baseUrl| == |DefaultBaseUrl|;
    assert !EndsWith(c.baseUrl, VersionSuffix) by {
      assert c.baseUrl[|c.baseUrl| - 1] != VersionSuffix[|VersionSuffix| - 1];
    }
    c
  }

  /** The `api_root` property: the base URL with `/api/v1` appended unless it
      already ends with it. */
  function ApiRoot(c: Config): (root: string)
    ensures EndsWith(root, VersionSuffix)
    ensures c.baseUrl <= root
    ensures EndsWith(c.baseUrl, VersionSuffix) ==> root == c.baseUrl
    ensures !EndsWith(c.baseUrl, VersionSuffix) ==> root == c.baseUrl + VersionSuffix
  {
    if EndsWith(c.baseUrl, VersionSuffix) then c.baseUrl else c.baseUrl + VersionSuffix
  }

  /** A base URL that already names the versioned root, with any number of
      trailing slashes, yields that root: `/api/v1` is never appended twice. */
  lemma ApiRootOfVersionedBase(apiKey: string, root: string, slashes: string)
    requires EndsWith(root, VersionSuffix)
    requires forall i :: 0 <= i < |slashes| ==> slashes[i] == '/'
    ensures ApiRoot(NewConfig(apiKey, root + slashes)) == root
  {
    var c := NewConfig(apiKey, root + slashes);
    var b := root + slashes;
    assert b[|root| - 1] == '1';
    assert c.baseUrl == b[..|c.baseUrl|];
    assert c.baseUrl == root;
  }

  /** The URL `_request` calls: the API root, one `/`, and the path with its
      leading slashes removed. */
  function Url(c: Config, path: string): (url: string)
    ensures ApiRoot(c) + "/" <= url
    ensures |url| > |ApiRoot(c)| + 1 ==> url[|ApiRoot(c)| + 1] != '/'
    ensures var tail := url[|ApiRoot(c)| + 1..];
      && |tail| <= |path| && path[|path| - |tail|..] == tail
      && forall i :: 0 <= i < |path| - |tail| ==> path[i] == '/'
  {
    var tail := LStripChar(path, '/');
    var url := ApiRoot(c) + "/" + tail;
    assert url[|ApiRoot(c)| + 1..] == tail;
    url
  }

  /** Leading slashes on a path make no difference to the URL. */
  lemma UrlIgnoresLeadingSlash(c: Config, path: string)
    ensures Url(c, "/" + path) == Url(c, path)
  {
    LStripDropsFirst('/', path, IsChar('/'));
  }

  /** The fixed headers of `_headers`: the client's key, its user agent,
      and a request for JSON. */
  function Headers(c: Config): (h: map<string, string>)
    ensures h.Keys == {"x-api-key", "User-Agent", "Accept"}
    ensures h["x-api-key"] == c.apiKey
    ensures h["User-Agent"] == UserAgent && h["Accept"] == "application/json"
  {
    map["x-api-key" := c.apiKey, "User-Agent" := UserAgent, "Accept" := "application/json"]
  }

  /** The query parameters `_request` transmits: the entries whose value is
      not `None`, values unchanged. */
  function Transmitted(params: map<string, Json>): (sent: map<string, Json>)
    ensures forall k :: k in sent <==> k in params && params[k] != JNull
    ensures forall k :: k in sent ==> sent[k] == params[k]
  {
    map k | k in params && params[k] != JNull :: params[k]
  }

  /** Filtering is idempotent and leaves no `None` behind. */
  lemma TransmittedIdempotent(params: map<string, Json>)
    ensures Transmitted(Transmitted(params)) == Transmitted(params)
    ensures JNull !in Transmitted(params).Values
  {
  }

  /** The request `_request` hands to the session. */
  function BuildRequest(c: Config, verb: string, path: string, params: map<string, Json>): Request {
    Request(verb, Url(c, path), Headers(c), Transmitted(params))
  }

  /** The payload `_request` keeps: the decoded value, or the raw text when
      the body does not decode. */
  function Payload(r: Response): Json {
    match r.body
    case Decoded(v) => v
    case NotJson => JString(r.text)
  }

  /** The error message `_request` derives from a response: a dict body's
      truthy `error`, else its truthy `message`, else the reason; for a body
      that is not JSON, its text cut to 200 characters unless blank. */
  function ErrorMessage(r: Response): (m: string)
    ensures r.body.Decoded? && r.body.value.JObject? ==>
      var v := r.body.value;
      && (Truthy(Lookup(v, "error")) ==> m == Render(Lookup(v, "error")))
      && (!Truthy(Lookup(v, "error")) && Truthy(Lookup(v, "message")) ==> m == Render(Lookup(v, "message")))
      && (!Truthy(Lookup(v, "error")) && !Truthy(Lookup(v, "message")) ==> m == r.reason)
    ensures r.body.Decoded? && !r.body.value.JObject? ==> m == r.reason
    ensures r.body.NotJson? && Strip(r.text) == "" ==> m == r.reason
    ensures r.body.NotJson? && Strip(r.text) != "" ==>
      m <= r.text && |m| == if |r.text| < 200 then |r.text| else 200
  {
    match r.body
    case Decoded(v) =>
      if !v.JObject? then r.reason
      else if Truthy(Lookup(v, "error")) then Render(Lookup(v, "error"))
      else if Truthy(Lookup(v, "message")) then Render(Lookup(v, "message"))
      else r.reason
    case NotJson =>
      if Strip(r.text) != "" then Take(r.text, 200) else r.reason
  }

  /** `{"ok": True, "raw": payload}`, the wrapper for a payload that is not a dict. */
  function RawWrapper(payload: Json): (w: Json)
    ensures Keys(w) == ["ok", "raw"]
    ensures Lookup(w, "ok") == JBool(true) && Lookup(w, "raw") == payload
  {
    var fields := [Field("ok", JBool(true)), Field("raw", payload)];
    assert fields[1..] == [Field("raw", payload)];
    assert FieldValue(fields[1..], "raw") == Some(payload);
    assert fields[0].key != "raw";
    JObject(fields)
  }

  /** The second half of `_request`: a status of 400 or more raises an error
      carrying the status and payload; otherwise a dict payload is returned
      as is and anything else is wrapped. */
  function MapResponse(r: Response): (res: Result<Json, ApiError>)
    ensures res.Err? <==> r.status >= 400
    ensures res.Err? ==> res.error.status == r.status && res.error.payload == Payload(r)
    ensures res.Err? && r.body.Decoded? && r.body.value.JObject? ==>
      var v := r.body.value;
      && (Truthy(Lookup(v, "error")) ==> res.error.message == Render(Lookup(v, "error")))
      && (!Truthy(Lookup(v, "error")) && Truthy(Lookup(v, "message")) ==>
            res.error.message == Render(Lookup(v, "message")))
      && (!Truthy(Lookup(v, "error")) && !Truthy(Lookup(v, "message")) ==>
            res.error.message == r.reason)
    ensures res.Err? && r.body.Decoded? && !r.body.value.JObject? ==> res.error.message == r.reason
    ensures res.Err? && r.body.NotJson? ==>
      if Strip(r.text) == "" then res.error.message == r.reason
      else
        && res.error.message <= r.text
        && |res.error.message| == if |r.text| < 200 then |r.text| else 200
    ensures res.Ok? ==> res.value.JObject?
    ensures res.Ok? && Payload(r).JObject? ==> res.value == Payload(r)
    ensures res.Ok? && !Payload(r).JObject? ==>
      && Keys(res.value) == ["ok", "raw"]
      && Lookup(res.value, "ok") == JBool(true)
      && Lookup(res.value, "raw") == Payload(r)
  {
    if r.status >= 400 then Err(ApiError(r.status, ErrorMessage(r), Payload(r)))
    else if Payload(r).JObject? then Ok(Payload(r))
    else Ok(RawWrapper(Payload(r)))
  }

  /** An error body `{"error": "bad key", ...}` raises with message "bad key"
      and the parsed body as payload. */
  lemma ErrorFieldBecomesMessage(status: int, reason: string, rest: seq<Field>, text: string)
    requires status >= 400
    ensures var body := JObject([Field("error", JString("bad key"))] + rest);
      MapResponse(Response(status, reason, Decoded(body), text))
        == Err(ApiError(status, "bad key", body))
  {
  }

  /** A non-JSON error body that is not blank becomes the message, cut to 200
      characters, and is itself the payload. */
  lemma PlainTextErrorBody(status: int, reason: string, text: string)
    requires status >= 400 && Strip(text) != ""
    ensures MapResponse(Response(status, reason, NotJson, text))
      == Err(ApiError(status, Take(text, 200), JString(text)))
  {
  }

  /** All of `_request`: build the request, let the session answer it, map
      the response. */
  function Call(c: Config, session: Request -> Response, verb: string, path: string,
                params: map<string, Json>): (res: Result<Json, ApiError>)
    ensures exists q: Request :: && q.verb == verb && q.url == Url(c, path) && q.headers == Headers(c)
                        && q.params == Transmitted(params) && res == MapResponse(session(q))
    ensures res.Ok? ==> res.value.JObject?
  {
    MapResponse(session(BuildRequest(c, verb, path, params)))
  }

  /** What `_csv` is given: `None`, a single string, or an iterable of values. */
  datatype CsvArg = Missing | OneString(s: string) | Values(values: seq<Json>)

  /** `str(v).strip()`. */
  function Piece(v: Json): string {
    Strip(Render(v))
  }

  /** The non-empty strings of `pieces`, in order. */
  function NonEmpty(pieces: seq<string>): (kept: seq<string>)
    ensures |kept| <= |pieces|
    ensures forall i :: 0 <= i < |kept| ==> kept[i] != ""
    ensures |kept| == 0 <==> forall i :: 0 <= i < |pieces| ==> pieces[i] == ""
  {
    if pieces == [] then []
    else
      var p := NonEmpty(pieces[..|pieces| - 1]);
      var v := pieces[|pieces| - 1];
      if v == "" then p else p + [v]
  }

  /** Filtering keeps the order of the pieces: the kept pieces of a
      concatenation are those of its first part, then those of its second;
      one piece is kept exactly when it is not blank. */
  lemma {:induction false} NonEmptyAppend(a: seq<string>, b: seq<string>)
    ensures NonEmpty(a + b) == NonEmpty(a) + NonEmpty(b)
    ensures |b| == 1 ==> NonEmpty(b) == if b[0] == "" then [] else b
    decreases |b|
  {
    if b == [] {
      assert a + b == a;
    } else {
      var b' := b[..|b| - 1];
      assert (a + b)[..|a + b| - 1] == a + b';
      assert (a + b)[|a + b| - 1] == b[|b| - 1];
      NonEmptyAppend(a, b');
      if |b| == 1 {
        assert b' == [];
      }
    }
  }

  /** `[f(x) for x in s]`. */
  function Map<A, B>(s: seq<A>, f: A -> B): (r: seq<B>)
    ensures |r| == |s|
    ensures forall i :: 0 <= i < |s| ==> r[i] == f(s[i])
  {
    seq(|s|, i requires 0 <= i < |s| => f(s[i]))
  }

  lemma MapAppend<A, B>(a: seq<A>, b: seq<A>, f: A -> B)
    ensures Map(a + b, f) == Map(a, f) + Map(b, f)
  {
    var l := Map(a + b, f);
    var r := Map(a, f) + Map(b, f);
    forall i | 0 <= i < |l| ensures l[i] == r[i] {
      if i < |a| {
        assert (a + b)[i] == a[i];
      } else {
        assert (a + b)[i] == b[i - |a|];
      }
    }
  }

  /** `str(v).strip()` for each value, in order. */
  function Pieces(values: seq<Json>): (ps: seq<string>)
    ensures |ps| == |values|
    ensures forall i :: 0 <= i < |values| ==> ps[i] == Piece(values[i])
  {
    Map(values, Piece)
  }

  /** `[str(v).strip() for v in values if str(v).strip()]`. */
  function CsvParts(values: seq<Json>): seq<string> {
    NonEmpty(Pieces(values))
  }

  /** The pieces follow the values' order: those of a concatenation are the
      pieces of its first part, then of its second, and one value gives its
      stripped rendering unless that is blank. */
  lemma CsvPartsAppend(a: seq<Json>, b: seq<Json>)
    ensures CsvParts(a + b) == CsvParts(a) + CsvParts(b)
    ensures |b| == 1 ==> CsvParts(b) == if Piece(b[0]) == "" then [] else [Piece(b[0])]
  {
    MapAppend(a, b, Piece);
    NonEmptyAppend(Pieces(a), Pieces(b));
  }

  /** `_csv`: `None` stays `None`; a string is stripped and kept whole; an
      iterable becomes its stripped, non-blank renderings joined by commas;
      a blank outcome is `None`. */
  function Csv(arg: CsvArg): (r: Option<string>)
    ensures arg.Missing? ==> r == None
    ensures arg.OneString? ==>
      (r == None <==> Strip(arg.s) == "") && (r.Some? ==> r.value == Strip(arg.s))
    ensures arg.Values? ==>
      (r == None <==> forall i :: 0 <= i < |arg.values| ==> Piece(arg.values[i]) == "")
    ensures arg.Values? && r.Some? ==> r.value == Join(CsvParts(arg.values), ",")
    ensures r.Some? ==> r.value != ""
  {
    match arg
    case Missing => None
    case OneString(s) => if Strip(s) == "" then None else Some(Strip(s))
    case Values(values) =>
      CsvPartsEmpty(values);
      var parts := CsvParts(values);
      if |parts| == 0 then None else Some(Join(parts, ","))
  }

  /** No piece is kept exactly when every value renders blank. */
  lemma CsvPartsEmpty(values: seq<Json>)
    ensures |CsvParts(values)| == 0 <==> forall i :: 0 <= i < |values| ==> Piece(values[i]) == ""
  {
    var pieces := Pieces(values);
  }

  lemma {:induction false} NonEmptyKeepsAbsent(pieces: seq<string>, c: char)
    requires forall i :: 0 <= i < |pieces| ==> c !in pieces[i]
    ensures forall i :: 0 <= i < |NonEmpty(pieces)| ==> c !in NonEmpty(pieces)[i]
  {
    if pieces != [] {
      NonEmptyKeepsAbsent(pieces[..|pieces| - 1], c);
    }
  }

  /** The stripped renderings never contain a character the renderings lack. */
  lemma {:induction false} CsvPartsKeepAbsent(values: seq<Json>, c: char)
    requires forall i :: 0 <= i < |values| ==> c !in Render(values[i])
    ensures forall i :: 0 <= i < |CsvParts(values)| ==> c !in CsvParts(values)[i]
  {
    var pieces := Pieces(values);
    forall i | 0 <= i < |values| ensures c !in pieces[i] {
      StripByKeepsAbsent(Render(values[i]), IsSpace, c);
    }
    NonEmptyKeepsAbsent(pieces, c);
  }

  /** When no value renders with a comma, splitting the joined string on
      commas gives back the kept values, in their original order. */
  lemma CsvSplitRoundTrip(values: seq<Json>)
    requires forall i :: 0 <= i < |values| ==> ',' !in Render(values[i])
    ensures Csv(Values(values)).Some? ==> Split(Csv(Values(values)).value, ',') == CsvParts(values)
  {
    CsvPartsKeepAbsent(values, ',');
    if CsvParts(values) != [] {
      SplitJoin(CsvParts(values), ',');
    }
  }

  const GameArgsMessage: string :=
    "Provide either condition_id OR all of league, game_date, team_a_id, team_b_id"
  const TeamArgsMessage: string := "Provide one of: team_id, name, abbreviation"

  /** The parameter `k` as `_request` sends it: present exactly when `v` is
      not `None`, and then with the value `v`. */
  predicate SentAs(params: map<string, Json>, k: string, v: Json) {
    && (k in params <==> v != JNull)
    && (k in params ==> params[k] == v)
  }

  /** `str(v) if v is not None else None`. */
  function TextOrNull(v: Json): Json {
    if v == JNull then JNull else JString(Render(v))
  }

  /** `get_game`: a ValueError unless `condition_id` is truthy or all four of
      league, game_date, team_a_id and team_b_id are given; otherwise the
      `/game` request. Dates are passed as their ISO strings. */
  function GameRequest(c: Config, conditionId: Json, league: Json, gameDate: Json,
                       teamA: Json, teamB: Json): (r: Result<Request, string>)
    ensures r.Err? <==>
      !Truthy(conditionId) && (league == JNull || gameDate == JNull || teamA == JNull || teamB == JNull)
    ensures r.Err? ==> r.error == GameArgsMessage
    ensures r.Ok? ==>
      && r.value.verb == "GET" && r.value.url == Url(c, "/game") && r.value.headers == Headers(c)
      && r.value.params.Keys <= {"condition_id", "league", "game_date", "team_a_id", "team_b_id"}
      && SentAs(r.value.params, "condition_id", conditionId)
      && SentAs(r.value.params, "league", league)
      && SentAs(r.value.params, "game_date", TextOrNull(gameDate))
      && SentAs(r.value.params, "team_a_id", TextOrNull(teamA))
      && SentAs(r.value.params, "team_b_id", TextOrNull(teamB))
  {
    var hasCondition := Truthy(conditionId);
    var hasComposite := league != JNull && gameDate != JNull && teamA != JNull && teamB != JNull;
    if !hasCondition && !hasComposite then Err(GameArgsMessage)
    else
      var params := map[
        "condition_id" := conditionId,
        "league" := league,
        "game_date" := TextOrNull(gameDate),
        "team_a_id" := TextOrNull(teamA),
        "team_b_id" := TextOrNull(teamB)];
      assert params["condition_id"] == conditionId && params["league"] == league;
      assert params["game_date"] == TextOrNull(gameDate);
      assert params["team_a_id"] == TextOrNull(teamA);
      assert params["team_b_id"] == TextOrNull(teamB);
      Ok(BuildRequest(c, "GET", "/game", params))
  }

  /** `get_team`: a ValueError unless one of team_id, name, abbreviation is
      truthy; otherwise the `/team` request. */
  function TeamRequest(c: Config, teamId: Json, name: Json, abbreviation: Json,
                       league: Json): (r: Result<Request, string>)
    ensures r.Err? <==> !Truthy(teamId) && !Truthy(name) && !Truthy(abbreviation)
    ensures r.Err? ==> r.error == TeamArgsMessage
    ensures r.Ok? ==>
      && r.value.verb == "GET" && r.value.url == Url(c, "/team") && r.value.headers == Headers(c)
      && r.value.params.Keys <= {"team_id", "name", "abbreviation", "league"}
      && SentAs(r.value.params, "team_id", TextOrNull(teamId))
      && SentAs(r.value.params, "name", name)
      && SentAs(r.value.params, "abbreviation", abbreviation)
      && SentAs(r.value.params, "league", league)
  {
    if !Truthy(teamId) && !Truthy(name) && !Truthy(abbreviation) then Err(TeamArgsMessage)
    else
      var params := map[
        "team_id" := TextOrNull(teamId),
        "name" := name,
        "abbreviation" := abbreviation,
        "league" := league];
      assert params["team_id"] == TextOrNull(teamId);
      assert params["name"] == name;
      assert params["abbreviation"] == abbreviation && params["league"] == league;
      Ok(BuildRequest(c, "GET", "/team", params))
  }

  /** A team id of 0 alone is falsy, so `get_team` rejects it. */
  lemma TeamIdZeroRejected(c: Config, league: Json)
    ensures TeamRequest(c, JInt(0), JNull, JNull, league) == Err(TeamArgsMessage)
  {
  }

  /** `_csv(arg)` as a parameter value: `None` stays `None`. */
  function CsvParam(arg: CsvArg): Json {
    match Csv(arg)
    case Some(s) => JString(s)
    case None => JNull
  }

  /** The `params` dict `get_predictions` builds, before `_request` drops
      its `None` values. */
  function PredictionsParams(time: Json, slug: Json, conditionId: Json, teamText: Json,
                             tagText: Json, tagsMode: Json, cursor: Json, limit: Json): (p: map<string, Json>)
    ensures p.Keys == {"time", "slug", "condition_id", "team_id", "tag", "tags_mode", "cursor", "limit"}
    ensures p["time"] == time && p["slug"] == slug && p["condition_id"] == conditionId
    ensures p["team_id"] == teamText && p["tag"] == tagText && p["tags_mode"] == tagsMode
    ensures p["cursor"] == cursor && p["limit"] == limit
  {
    map[
      "time" := time,
      "slug" := slug,
      "condition_id" := conditionId,
      "team_id" := teamText,
      "tag" := tagText,
      "tags_mode" := tagsMode,
      "cursor" := cursor,
      "limit" := limit]
  }

  /** The `get_predictions` query: its eight parameters, `None` ones dropped
      when sent. The time is passed already converted by `_unixish`. */
  function PredictionsRequest(c: Config, time: Json, slug: Json, conditionId: Json, teamId: Json,
                              tag: CsvArg, tagsMode: Json, cursor: Json, limit: Json): (r: Request)
    ensures r.verb == "GET" && r.url == Url(c, "/predictions") && r.headers == Headers(c)
    ensures r.params.Keys <=
      {"time", "slug", "condition_id", "team_id", "tag", "tags_mode", "cursor", "limit"}
    ensures SentAs(r.params, "time", time) && SentAs(r.params, "slug", slug)
    ensures SentAs(r.params, "condition_id", conditionId)
    ensures SentAs(r.params, "team_id", TextOrNull(teamId))
    ensures SentAs(r.params, "tag", CsvParam(tag))
    ensures SentAs(r.params, "tags_mode", tagsMode)
    ensures SentAs(r.params, "cursor", cursor) && SentAs(r.params, "limit", limit)
  {
    var params := PredictionsParams(time, slug, conditionId, TextOrNull(teamId), CsvParam(tag),
                                    tagsMode, cursor, limit);
    BuildRequest(c, "GET", "/predictions", params)
  }
}

=== FILE: dedup.dfy ===
/** Keeping the first element of each key, in encounter order: the shape of
    every "seen-set" loop in the export script (prediction rows keyed on
    condition id and outcome, CSV field names keyed on themselves). */
module Dedup {

  /** The keys carried by the elements of `s`. */
  function KeysOf<T, K(==, !new)>(s: seq<T>, key: T -> K): set<K> {
    set i | 0 <= i < |s| :: key(s[i])
  }

  /** The loop `for x in s: if key(x) not in seen: seen.add(key(x)); out.append(x)`,
      one step per element, as the state after the last element. */
  function DedupBy<T, K(==, !new)>(s: seq<T>, key: T -> K): seq<T>
  {
    if s == [] then []
    else
      var p := s[..|s| - 1];
      var x := s[|s| - 1];
      DedupBy(p, key) + (if key(x) in KeysOf(p, key) then [] else [x])
  }

  /** Position of the first element of `s` whose key is `k`. */
  function FirstIndex<T, K(==, !new)>(s: seq<T>, key: T -> K, k: K): (i: nat)
    requires k in KeysOf(s, key)
    ensures i < |s| && key(s[i]) == k
    ensures forall j :: 0 <= j < i ==> key(s[j]) != k
  {
    if key(s[0]) == k then 0
    else
      assert k in KeysOf(s[1..], key) by {
        var j :| 0 <= j < |s| && key(s[j]) == k;
        assert key(s[1..][j - 1]) == k;
      }
      1 + FirstIndex(s[1..], key, k)
  }

  /** Appending one element adds exactly its key. */
  lemma KeysOfAppend<T, K(!new)>(s: seq<T>, x: T, key: T -> K)
    ensures KeysOf(s + [x], key) == KeysOf(s, key) + {key(x)}
  {
    var s' := s + [x];
    forall k ensures k in KeysOf(s', key) <==> k in KeysOf(s, key) + {key(x)} {
      if k in KeysOf(s', key) {
        var i :| 0 <= i < |s'| && key(s'[i]) == k;
        if i < |s| {
          assert key(s[i]) == k;
        }
      }
      if k in KeysOf(s, key) {
        var i :| 0 <= i < |s| && key(s[i]) == k;
        assert key(s'[i]) == k;
      }
      if k == key(x) {
        assert key(s'[|s|]) == k;
      }
    }
  }

  /** Appending one element extends the loop by one step. */
  lemma DedupByAppend<T, K(!new)>(s: seq<T>, x: T, key: T -> K)
    ensures KeysOf(s + [x], key) == KeysOf(s, key) + {key(x)}
    ensures DedupBy(s + [x], key) == DedupBy(s, key) + (if key(x) in KeysOf(s, key) then [] else [x])
  {
    KeysOfAppend(s, x, key);
    assert (s + [x])[..|s|] == s;
  }

  /** A first index stays first when elements are appended after it. */
  lemma FirstIndexPrefix<T, K(!new)>(p: seq<T>, x: T, key: T -> K, k: K)
    requires k in KeysOf(p, key)
    ensures k in KeysOf(p + [x], key)
    ensures FirstIndex(p + [x], key, k) == FirstIndex(p, key, k)
  {
    DedupByAppend(p, x, key);
    var i' := FirstIndex(p, key, k);
    assert (p + [x])[i'] == p[i'];
  }

  /** The dedup loop loses no key and invents none. */
  lemma {:induction false} DedupByKeys<T, K(!new)>(s: seq<T>, key: T -> K)
    ensures KeysOf(DedupBy(s, key), key) == KeysOf(s, key)
  {
    if s != [] {
      var p := s[..|s| - 1];
      var x := s[|s| - 1];
      assert s == p + [x];
      DedupByKeys(p, key);
      DedupByAppend(p, x, key);
      var rp := DedupBy(p, key);
      if key(x) !in KeysOf(p, key) {
        assert DedupBy(s, key) == rp + [x];
        KeysOfAppend(rp, x, key);
      } else {
        assert DedupBy(s, key) == rp;
      }
    }
  }

  /** Every element the dedup loop keeps is the FIRST element of `s` with
      its key, and the kept elements appear in the order in which their keys
      first occur in `s`. */
  lemma {:induction false} DedupByFirstSeen<T, K(!new)>(s: seq<T>, key: T -> K)
    ensures var r := DedupBy(s, key);
      forall i :: 0 <= i < |r| ==>
        && key(r[i]) in KeysOf(s, key)
        && r[i] == s[FirstIndex(s, key, key(r[i]))]
    ensures var r := DedupBy(s, key);
      forall i, j :: 0 <= i < j < |r| ==>
        && key(r[i]) in KeysOf(s, key) && key(r[j]) in KeysOf(s, key)
        && FirstIndex(s, key, key(r[i])) < FirstIndex(s, key, key(r[j]))
  {
    if s != [] {
      var p := s[..|s| - 1];
      var x := s[|s| - 1];
      assert s == p + [x];
      DedupByFirstSeen(p, key);
      DedupByAppend(p, x, key);
      var rp := DedupBy(p, key);
      var r := DedupBy(s, key);
      forall i | 0 <= i < |rp|
        ensures key(rp[i]) in KeysOf(s, key)
        ensures FirstIndex(s, key, key(rp[i])) == FirstIndex(p, key, key(rp[i]))
      {
        FirstIndexPrefix(p, x, key, key(rp[i]));
      }
      if key(x) !in KeysOf(p, key) {
        assert r == rp + [x];
        assert FirstIndex(s, key, key(x)) == |p|;
        assert forall i :: 0 <= i < |rp| ==> r[i] == rp[i];
      } else {
        assert r == rp;
      }
    }
  }

  /** No two elements the dedup loop keeps share a key. */
  lemma DedupByDistinct<T, K(!new)>(s: seq<T>, key: T -> K)
    ensures var r := DedupBy(s, key);
      forall i, j :: 0 <= i < j < |r| ==> key(r[i]) != key(r[j])
  {
    DedupByFirstSeen(s, key);
  }

  /** Strings keyed on themselves. */
  function Same(k: string): string {
    k
  }

  /** Keyed on themselves, the keys of a sequence are its elements. */
  lemma SameKeys(s: seq<string>)
    ensures forall k :: k in KeysOf(s, Same) <==> k in s
  {
    forall k ensures k in KeysOf(s, Same) <==> k in s {
      if k in s {
        var i :| 0 <= i < |s| && s[i] == k;
        assert Same(s[i]) == k;
      }
    }
  }

  /** The dedup loop run over `items` after `before`: `kept` and `seen` are
      what it holds for `before`, and the loop keeps each item whose key it
      has not seen yet. */
  method DedupExtend<T, K(==, !new)>(kept: seq<T>, seen: set<K>, ghost before: seq<T>, items: seq<T>, key: T -> K)
    returns (kept': seq<T>, seen': set<K>)
    requires kept == DedupBy(before, key) && seen == KeysOf(before, key)
    ensures kept' == DedupBy(before + items, key) && seen' == KeysOf(before + items, key)
  {
    kept', seen' := kept, seen;
    assert before + items[..0] == before;
    var j := 0;
    while j < |items|
      invariant 0 <= j <= |items|
      invariant kept' == DedupBy(before + items[..j], key)
      invariant seen' == KeysOf(before + items[..j], key)
    {
      var item := items[j];
      DedupByAppend(before + items[..j], item, key);
      assert before + items[..j + 1] == (before + items[..j]) + [item];
      if key(item) !in seen' {
        seen' := seen' + {key(item)};
        kept' := kept' + [item];
      }
      j := j + 1;
    }
    assert items[..|items|] == items;
  }
}

=== FILE: env.dfy ===
/** The `.env` reader of `examples/export_cbb_snapshot_csv.py`
    (`_load_env_file`): each stripped line that is neither blank, nor a
    `#` comment, nor free of `=` is split at its first `=` into a stripped
    key and a value stripped of whitespace, then of double quotes, then of
    single quotes; the pair is set only where the environment has no value
    yet. The file is modelled as its list of lines. */
module EnvFile {
  import opened Outcomes
  import opened Text

  datatype EnvEntry = EnvEntry(key: string, value: string)

  /** The lines `_load_env_file` skips. */
  predicate Skipped(line: string) {
    line == [] || line[0] == '#' || '=' !in line
  }

  /** The value as the loader keeps it: stripped of whitespace, then of
      double quotes, then of single quotes, each time at both ends only. */
  function Unquote(v: string): (r: string)
    ensures |r| <= |v|
    ensures exists w, q ::
      StripsTo(v, w, IsSpace) && StripsTo(w, q, IsChar('"')) && StripsTo(q, r, IsChar('\''))
    ensures r != [] ==> r[0] != '\'' && r[|r| - 1] != '\''
  {
    var w := Strip(v);
    var q := StripChar(w, '"');
    StripChar(q, '\'')
  }

  /** `line.split("=", 1)` with the key stripped and the value unquoted:
      the line is cut at its first `=`. */
  function Assignment(line: string): (e: EnvEntry)
    requires '=' in line
    ensures exists k, w :: line == k + "=" + w && '=' !in k && e == EnvEntry(Strip(k), Unquote(w))
    ensures '=' !in e.key
    ensures Trimmed(e.key)
  {
    FindPresent(line, '=');
    FindPrefixAbsent(line, '=');
    var i := Find(line, '=');
    var k := line[..i];
    var w := line[i + 1..];
    assert line == k + "=" + w;
    StripByKeepsAbsent(k, IsSpace, '=');
    EnvEntry(Strip(k), Unquote(w))
  }

  /** One line of the file: `None` for the lines the loader skips. */
  function ParseEnvLine(raw: string): (r: Option<EnvEntry>)
    ensures r.None? <==> Skipped(Strip(raw))
    ensures r.Some? ==> r.value == Assignment(Strip(raw))
  {
    var line := Strip(raw);
    if Skipped(line) then None else Some(Assignment(line))
  }

  /** A key the loader reads back as written: no `=`, not a comment, no
      surrounding whitespace. */
  predicate PlainKey(k: string) {
    k != [] && '=' !in k && k[0] != '#' && !IsSpace(k[0]) && !IsSpace(k[|k| - 1])
  }

  /** A value the loader reads back as written: no surrounding whitespace
      or quotes. */
  predicate PlainValue(v: string) {
    v != [] ==>
      && !IsSpace(v[0]) && !IsSpace(v[|v| - 1])
      && v[0] != '"' && v[|v| - 1] != '"'
      && v[0] != '\'' && v[|v| - 1] != '\''
  }

  lemma UnquotePlain(v: string)
    requires PlainValue(v)
    ensures Unquote(v) == v
  {
    StripByUnchanged(v, IsSpace);
    StripByUnchanged(v, IsChar('"'));
    StripByUnchanged(v, IsChar('\''));
  }

  /** The first `=` ends the key. */
  lemma AssignmentAt(k: string, w: string)
    requires '=' !in k
    ensures Assignment(k + "=" + w) == EnvEntry(Strip(k), Unquote(w))
  {
    var line := k + "=" + w;
    assert line[|k|] == '=';
    assert forall j :: 0 <= j < |k| ==> line[j] == k[j];
    assert Find(line, '=') == |k|;
    assert line[..|k|] == k;
    assert line[|k| + 1..] == w;
  }

  lemma StripAssignmentLine(k: string, w: string)
    requires k != [] && !IsSpace(k[0])
    requires w != [] ==> !IsSpace(w[|w| - 1])
    ensures Strip(k + "=" + w) == k + "=" + w
  {
    var line := k + "=" + w;
    assert line[0] == k[0];
    assert line[|line| - 1] == if w == [] then '=' else w[|w| - 1];
    StripByUnchanged(line, IsSpace);
  }

  /** A line that is already stripped, not a comment and holds `=` is an
      assignment. */
  lemma ParseStrippedLine(line: string)
    requires Strip(line) == line && line != [] && line[0] != '#' && '=' in line
    ensures ParseEnvLine(line) == Some(Assignment(line))
  {
  }

  lemma ParseAssignmentLine(k: string, w: string)
    requires PlainKey(k)
    requires w != [] ==> !IsSpace(w[|w| - 1])
    ensures ParseEnvLine(k + "=" + w) == Some(Assignment(k + "=" + w))
  {
    var line := k + "=" + w;
    StripAssignmentLine(k, w);
    assert line[|k|] == '=' && line[0] == k[0];
    ParseStrippedLine(line);
  }

  /** The line `k=w` parses to the key `k` and the unquoted `w`. */
  lemma ParseAssignment(k: string, w: string)
    requires PlainKey(k)
    requires w != [] ==> !IsSpace(w[|w| - 1])
    ensures ParseEnvLine(k + "=" + w) == Some(EnvEntry(k, Unquote(w)))
  {
    ParseAssignmentLine(k, w);
    AssignmentAt(k, w);
    StripByUnchanged(k, IsSpace);
  }

  /** `KEY=value` round-trips. */
  lemma ParsePlain(k: string, v: string)
    requires PlainKey(k) && PlainValue(v)
    ensures ParseEnvLine(k + "=" + v) == Some(EnvEntry(k, v))
  {
    ParseAssignment(k, v);
    UnquotePlain(v);
  }

  lemma UnquoteDoubleQuoted(v: string)
    requires PlainValue(v)
    ensures Unquote("\"" + v + "\"") == v
  {
    var w := "\"" + v + "\"";
    assert w == ['"'] + v + ['"'];
    StripByUnchanged(w, IsSpace);
    StripByEnclosed(v, '"', IsChar('"'));
    StripByUnchanged(v, IsChar('\''));
  }

  lemma UnquoteSingleQuoted(v: string)
    requires PlainValue(v)
    ensures Unquote("'" + v + "'") == v
  {
    var w := "'" + v + "'";
    assert w == ['\''] + v + ['\''];
    StripByUnchanged(w, IsSpace);
    StripByUnchanged(w, IsChar('"'));
    StripByEnclosed(v, '\'', IsChar('\''));
  }

  /** `KEY="value"` round-trips to the unquoted value. */
  lemma ParseDoubleQuoted(k: string, v: string)
    requires PlainKey(k) && PlainValue(v)
    ensures ParseEnvLine(k + "=" + "\"" + v + "\"") == Some(EnvEntry(k, v))
  {
    var w := "\"" + v + "\"";
    assert k + "=" + "\"" + v + "\"" == k + "=" + w;
    ParseAssignment(k, w);
    UnquoteDoubleQuoted(v);
  }

  /** `KEY='value'` round-trips to the unquoted value. */
  lemma ParseSingleQuoted(k: string, v: string)
    requires PlainKey(k) && PlainValue(v)
    ensures ParseEnvLine(k + "=" + "'" + v + "'") == Some(EnvEntry(k, v))
  {
    var w := "'" + v + "'";
    assert k + "=" + "'" + v + "'" == k + "=" + w;
    ParseAssignment(k, w);
    UnquoteSingleQuoted(v);
  }

  /** Each line as the loader reads it. */
  function ParsedLines(lines: seq<string>): (ps: seq<Option<EnvEntry>>)
    ensures |ps| == |lines|
    ensures forall i :: 0 <= i < |lines| ==> ps[i] == ParseEnvLine(lines[i])
  {
    seq(|lines|, i requires 0 <= i < |lines| => ParseEnvLine(lines[i]))
  }

  /** The assignments among the parsed lines, in order. */
  function Assigned(ps: seq<Option<EnvEntry>>): (es: seq<EnvEntry>)
    ensures |es| <= |ps|
  {
    if ps == [] then []
    else (if ps[0].Some? then [ps[0].value] else []) + Assigned(ps[1..])
  }

  /** The entries of the file, in order. */
  function Entries(lines: seq<string>): (es: seq<EnvEntry>)
    ensures |es| <= |lines|
  {
    Assigned(ParsedLines(lines))
  }

  /** The entries of one line: its assignment, or none when it is skipped. */
  lemma EntriesOfLine(line: string)
    ensures Entries([line]) == if ParseEnvLine(line).Some? then [ParseEnvLine(line).value] else []
  {
    var ps := ParsedLines([line]);
    assert ps[1..] == [];
  }

  lemma {:induction false} AssignedAppend(a: seq<Option<EnvEntry>>, b: seq<Option<EnvEntry>>)
    ensures Assigned(a + b) == Assigned(a) + Assigned(b)
    decreases |a|
  {
    if a == [] {
      assert a + b == b;
    } else {
      assert (a + b)[0] == a[0];
      assert (a + b)[1..] == a[1..] + b;
      AssignedAppend(a[1..], b);
    }
  }

  /** The entries of a file are those of its first lines followed by those
      of the rest: the file's line order is kept. */
  lemma EntriesAppend(a: seq<string>, b: seq<string>)
    ensures Entries(a + b) == Entries(a) + Entries(b)
  {
    assert ParsedLines(a + b) == ParsedLines(a) + ParsedLines(b);
    AssignedAppend(ParsedLines(a), ParsedLines(b));
  }

  /** The parsed line sets `k`. */
  predicate SetsKey(p: Option<EnvEntry>, k: string) {
    p.Some? && p.value.key == k
  }

  /** Line `i` is the first that sets `k`. */
  predicate FirstSetter(ps: seq<Option<EnvEntry>>, k: string, i: int) {
    && 0 <= i < |ps| && SetsKey(ps[i], k)
    && forall j :: 0 <= j < i ==> !SetsKey(ps[j], k)
  }

  /** The first entry for `k` comes from the first line that sets `k`; there
      is none when no line does. */
  lemma {:induction false} FirstValueOfLines(ps: seq<Option<EnvEntry>>, k: string)
    ensures FirstValue(Assigned(ps), k).None? ==>
      forall i :: 0 <= i < |ps| ==> !SetsKey(ps[i], k)
    ensures FirstValue(Assigned(ps), k).Some? ==>
      exists i :: FirstSetter(ps, k, i) && ps[i].value.value == FirstValue(Assigned(ps), k).value
    decreases |ps|
  {
    if ps != [] {
      var tail := ps[1..];
      FirstValueOfLines(tail, k);
      assert forall i :: 1 <= i < |ps| ==> ps[i] == tail[i - 1];
      var es := Assigned(ps);
      var fv := FirstValue(es, k);
      if SetsKey(ps[0], k) {
        assert es[0] == ps[0].value;
        assert FirstSetter(ps, k, 0);
      } else {
        assert FirstValue(Assigned(tail), k) == fv by {
          assert es == (if ps[0].Some? then [ps[0].value] else []) + Assigned(tail);
          if ps[0].Some? {
            assert es[0].key != k && es[1..] == Assigned(tail);
          } else {
            assert es == Assigned(tail);
          }
        }
        if fv.Some? {
          var i' :| FirstSetter(tail, k, i') && tail[i'].value.value == fv.value;
          assert FirstSetter(ps, k, i' + 1);
        }
      }
    }
  }

  function EntryKeys(es: seq<EnvEntry>): set<string> {
    set i | 0 <= i < |es| :: es[i].key
  }

  /** The value of the first entry for `k`. */
  function FirstValue(es: seq<EnvEntry>, k: string): (r: Option<string>)
    ensures r.Some? <==> k in EntryKeys(es)
  {
    if es == [] then None
    else if es[0].key == k then Some(es[0].value)
    else
      var r := FirstValue(es[1..], k);
      assert forall i :: 1 <= i < |es| ==> es[i] == es[1..][i - 1];
      assert k in EntryKeys(es) <==> k in EntryKeys(es[1..]);
      r
  }

  /** `os.environ.setdefault(key, value)`. */
  function SetDefault(env: map<string, string>, e: EnvEntry): (r: map<string, string>)
    ensures r.Keys == env.Keys + {e.key}
    ensures forall k :: k in env ==> r[k] == env[k]
    ensures e.key !in env ==> r[e.key] == e.value
  {
    if e.key in env then env else env[e.key := e.value]
  }

  /** The environment after setting each entry by default, in order: what
      was set stays, and a new key takes the value of its first entry. */
  function ApplyEntries(env: map<string, string>, es: seq<EnvEntry>): (r: map<string, string>)
    ensures r.Keys == env.Keys + EntryKeys(es)
    ensures forall k :: k in env ==> r[k] == env[k]
    ensures forall k :: k in r && k !in env ==> FirstValue(es, k) == Some(r[k])
    decreases |es|
  {
    if es == [] then env
    else
      var r := ApplyEntries(SetDefault(env, es[0]), es[1..]);
      assert EntryKeys(es) == {es[0].key} + EntryKeys(es[1..]) by {
        assert forall i :: 1 <= i < |es| ==> es[i] == es[1..][i - 1];
        assert forall i :: 0 <= i < |es[1..]| ==> es[1..][i] == es[i + 1];
      }
      r
  }

  /** `_load_env_file` on a file with these lines: a variable already set
      is kept, a key is added exactly when some line sets it, and a new key
      takes the value of the first line that sets it. */
  function LoadEnv(env: map<string, string>, lines: seq<string>): (r: map<string, string>)
    ensures r.Keys == env.Keys + EntryKeys(Entries(lines))
    ensures forall k :: k in env ==> r[k] == env[k]
    ensures var ps := ParsedLines(lines);
      forall k :: k in r <==> k in env || exists i :: 0 <= i < |ps| && SetsKey(ps[i], k)
    ensures var ps := ParsedLines(lines);
      forall k :: k in r && k !in env ==> exists i :: FirstSetter(ps, k, i) && ps[i].value.value == r[k]
  {
    var ps := ParsedLines(lines);
    var r := ApplyEntries(env, Assigned(ps));
    assert forall k ::
      && (k in r && k !in env ==> exists i :: FirstSetter(ps, k, i) && ps[i].value.value == r[k])
      && (k in r <==> k in env || exists i :: 0 <= i < |ps| && SetsKey(ps[i], k))
    by {
      forall k
        ensures k in r && k !in env ==> exists i :: FirstSetter(ps, k, i) && ps[i].value.value == r[k]
        ensures k in r <==> k in env || exists i :: 0 <= i < |ps| && SetsKey(ps[i], k)
      {
        FirstValueOfLines(ps, k);
      }
    }
    r
  }

  /** Loading the same entries again changes nothing. */
  lemma {:induction false} ApplyEntriesKnown(env: map<string, string>, es: seq<EnvEntry>)
    requires EntryKeys(es) <= env.Keys
    ensures ApplyEntries(env, es) == env
    decreases |es|
  {
    if es != [] {
      assert es[0].key in EntryKeys(es);
      assert EntryKeys(es[1..]) <= EntryKeys(es) by {
        assert forall i :: 0 <= i < |es[1..]| ==> es[1..][i] == es[i + 1];
      }
      ApplyEntriesKnown(env, es[1..]);
    }
  }

  /** Loading a file twice is loading it once. */
  lemma LoadEnvIdempotent(env: map<string, string>, lines: seq<string>)
    ensures LoadEnv(LoadEnv(env, lines), lines) == LoadEnv(env, lines)
  {
    ApplyEntriesKnown(LoadEnv(env, lines), Entries(lines));
  }
}

=== FILE: export.dfy ===
/** The snapshot export of `examples/export_cbb_snapshot_csv.py`: which games
    fall on the target day, the de-duplication of games by condition id,
    the per-condition-id prediction fetch and its de-duplication, and the
    CSV header of each written file. */
module Export {
  import opened Outcomes
  import opened Text
  import opened Json
  import opened Dedup
  import opened Order
  import opened Client
  import opened Index

  /** `\d{4}-\d{2}-\d{2}`, with ASCII digits. */
  predicate IsIsoDate(d: string) {
    && |d| == 10 && d[4] == '-' && d[7] == '-'
    && forall i :: 0 <= i < 10 && i != 4 && i != 7 ==> IsDigit(d[i])
  }

  /** `_slug_date`: the date the stripped slug ends with. The pattern is
      anchored with `$`, and a stripped slug has no trailing newline, so the
      only candidate is its last ten characters. */
  function SlugDate(slug: Json): (r: Option<string>)
    ensures var s := Strip(TextOr(slug));
      r.Some? <==> |s| >= 10 && IsIsoDate(s[|s| - 10..])
    ensures r.Some? ==> IsIsoDate(r.value) && EndsWith(Strip(TextOr(slug)), r.value)
  {
    var s := Strip(TextOr(slug));
    if s == [] then None
    else if |s| >= 10 && IsIsoDate(s[|s| - 10..]) then Some(s[|s| - 10..])
    else None
  }

  /** A slug string ending in a date yields that date, whatever precedes it. */
  lemma SlugDateOfSuffix(prefix: string, d: string)
    requires IsIsoDate(d)
    ensures SlugDate(JString(prefix + d)) == Some(d)
  {
    var t := prefix + d;
    assert TextOr(JString(t)) == t by { assert |t| >= 10; }
    StrippedEndsWithDate(prefix, d);
  }

  lemma StrippedEndsWithDate(prefix: string, d: string)
    requires IsIsoDate(d)
    ensures var s := Strip(prefix + d); |s| >= 10 && s[|s| - 10..] == d
  {
    assert !IsSpace(d[0]) && !IsSpace(d[9]) by {
      assert IsDigit(d[0]) && IsDigit(d[9]);
    }
    StripByKeepsSuffix(prefix, d, IsSpace);
  }

  /** A slug without enough characters for a date yields none. */
  lemma SlugDateShort(slug: Json)
    requires |Strip(TextOr(slug))| < 10
    ensures SlugDate(slug) == None
  {
  }

  /** `_game_is_on_target_day`. `localDay` is the calendar day, in the
      chosen time zone, of a `game_time` value, or `None` where the
      conversion raises. */
  function GameOnTargetDay(game: Json, target: string, localDay: Json -> Option<string>): (b: bool)
    ensures b <==>
      (Lookup(game, "game_time") != JNull && localDay(Lookup(game, "game_time")) == Some(target))
      || SlugDate(Lookup(game, "slug")) == Some(target)
  {
    var gt := Lookup(game, "game_time");
    if gt != JNull && localDay(gt) == Some(target) then true
    else SlugDate(Lookup(game, "slug")) == Some(target)
  }

  /** A slug ending in the target date keeps the game, whatever its
      `game_time` says. */
  lemma SlugFallbackKeeps(game: Json, prefix: string, target: string, localDay: Json -> Option<string>)
    requires IsIsoDate(target)
    requires Lookup(game, "slug") == JString(prefix + target)
    ensures GameOnTargetDay(game, target, localDay)
  {
    SlugDateOfSuffix(prefix, target);
  }

  /** Without a `game_time`, only the slug decides. */
  lemma NoGameTimeUsesSlug(game: Json, target: string, localDay: Json -> Option<string>)
    requires Lookup(game, "game_time") == JNull
    ensures GameOnTargetDay(game, target, localDay) <==> SlugDate(Lookup(game, "slug")) == Some(target)
  {
  }

  /** A target that is not a date matches no slug: such games are kept only
      through their `game_time`. */
  lemma NonDateTargetNeedsGameTime(game: Json, target: string, localDay: Json -> Option<string>)
    requires !IsIsoDate(target)
    ensures GameOnTargetDay(game, target, localDay) <==>
      Lookup(game, "game_time") != JNull && localDay(Lookup(game, "game_time")) == Some(target)
  {
  }

  /** `(str(item.get("condition_id") or ""), str(item.get("outcome") or ""))`:
      the pair on which prediction rows are de-duplicated. */
  function PredictionKey(item: Json): (string, string) {
    (TextOr(Lookup(item, "condition_id")), TextOr(Lookup(item, "outcome")))
  }

  /** How fetching the predictions of one condition id fails: `_request`
      raises, or the page's `items` is a value Python cannot iterate. */
  datatype FetchError = Api(error: ApiError) | NotIterable

  /** The dict elements of `xs`, in order. */
  function Dicts(xs: seq<Json>): (ds: seq<Json>)
    ensures |ds| <= |xs|
    ensures forall j :: 0 <= j < |ds| ==> ds[j].JObject?
  {
    if xs == [] then []
    else
      var rest := Dicts(xs[1..]);
      if xs[0].JObject? then [xs[0]] + rest else rest
  }

  /** The elements kept are exactly the dict elements. */
  lemma {:induction false} DictsMembers(xs: seq<Json>)
    ensures forall x :: x in Dicts(xs) <==> x in xs && x.JObject?
  {
    if xs != [] {
      DictsMembers(xs[1..]);
      assert forall x :: x in xs <==> x == xs[0] || x in xs[1..];
    }
  }

  /** The dicts of a page keep the page's order: those of a concatenation
      are the dicts of its first part, then of its second, and one element
      is kept exactly when it is a dict. */
  lemma {:induction false} DictsAppend(a: seq<Json>, b: seq<Json>)
    ensures Dicts(a + b) == Dicts(a) + Dicts(b)
    ensures |a| == 1 ==> Dicts(a) == if a[0].JObject? then a else []
    decreases |a|
  {
    if a == [] {
      assert a + b == b;
    } else {
      var x := a[0];
      var rest := a[1..];
      assert a + b == [x] + (rest + b);
      DictsCons(x, rest + b);
      DictsCons(x, rest);
      DictsAppend(rest, b);
    }
  }

  lemma DictsCons(x: Json, xs: seq<Json>)
    ensures Dicts([x] + xs) == (if x.JObject? then [x] else []) + Dicts(xs)
  {
    assert ([x] + xs)[1..] == xs;
  }

  /** The JSON values a Python `for` cannot iterate over. */
  predicate NotIterableValue(v: Json) {
    v.JNull? || v.JBool? || v.JInt?
  }

  /** The dicts `for item in payload.get("items", [])` reaches. Iterating a
      dict visits its keys and iterating a string its characters, so
      neither contributes; `None`, a bool or a number raises `TypeError`. */
  function ItemsOf(payload: Json): (r: Result<seq<Json>, FetchError>)
    ensures r.Err? <==> (Get(payload, "items").Some? && NotIterableValue(Get(payload, "items").value))
    ensures r.Err? ==> r.error == NotIterable
    ensures Get(payload, "items").None? ==> r == Ok([])
    ensures var v := Get(payload, "items"); v.Some? && (v.value.JObject? || v.value.JString?) ==> r == Ok([])
    ensures forall xs :: Get(payload, "items") == Some(JArray(xs)) ==> r == Ok(Dicts(xs))
    ensures r.Ok? ==> forall j :: 0 <= j < |r.value| ==> r.value[j].JObject?
  {
    match Get(payload, "items")
    case None => Ok([])
    case Some(JArray(xs)) => Ok(Dicts(xs))
    case Some(JObject(_)) => Ok([])
    case Some(JString(_)) => Ok([])
    case Some(_) => Err(NotIterable)
  }

  /** `client.get_predictions(time=decision_time, condition_id=cid, limit=100)`. */
  function ConditionQuery(c: Config, time: int, cid: string): Request {
    PredictionsRequest(c, JInt(time), JNull, JString(cid), JNull, Missing, JNull, JNull, JInt(100))
  }

  /** The `params` dict `get_predictions` builds for that call. */
  function ConditionParams(time: int, cid: string): map<string, Json> {
    PredictionsParams(JInt(time), JNull, JString(cid), TextOrNull(JNull), CsvParam(Missing), JNull, JNull, JInt(100))
  }

  /** Of the query's parameters only the time, the condition id and the
      limit are sent; the others are `None` and dropped. */
  lemma ConditionQuerySends(c: Config, time: int, cid: string)
    ensures var r := ConditionQuery(c, time, cid);
      && r.verb == "GET" && r.url == Url(c, "/predictions")
      && r.params == map["time" := JInt(time), "condition_id" := JString(cid), "limit" := JInt(100)]
  {
    assert Csv(Missing) == None;
    assert TextOrNull(JNull) == JNull;
    ConditionParamsSent(time, cid);
  }

  lemma ConditionParamsSent(time: int, cid: string)
    ensures Transmitted(map["time" := JInt(time), "slug" := JNull, "condition_id" := JString(cid),
                            "team_id" := JNull, "tag" := JNull, "tags_mode" := JNull,
                            "cursor" := JNull, "limit" := JInt(100)])
      == map["time" := JInt(time), "condition_id" := JString(cid), "limit" := JInt(100)]
  {
    var m := map["time" := JInt(time), "slug" := JNull, "condition_id" := JString(cid),
                 "team_id" := JNull, "tag" := JNull, "tags_mode" := JNull,
                 "cursor" := JNull, "limit" := JInt(100)];
    var sent := Transmitted(m);
    var want := map["time" := JInt(time), "condition_id" := JString(cid), "limit" := JInt(100)];
    assert m["time"] == JInt(time) && m["condition_id"] == JString(cid) && m["limit"] == JInt(100);
    assert m["slug"] == JNull && m["team_id"] == JNull && m["tag"] == JNull;
    assert m["tags_mode"] == JNull && m["cursor"] == JNull;
    assert sent.Keys == want.Keys;
  }

  /** The dict items of the page for `cid`, or why there are none. */
  function Query(c: Config, session: Request -> Response, time: int, cid: string): Result<seq<Json>, FetchError> {
    match Call(c, session, "GET", "/predictions", ConditionParams(time, cid))
    case Err(e) => Err(Api(e))
    case Ok(payload) => ItemsOf(payload)
  }

  /** The queries of the first `i` ids all succeed. */
  predicate FirstOk(query: string -> Result<seq<Json>, FetchError>, cids: seq<string>, i: nat)
    requires i <= |cids|
  {
    forall j :: 0 <= j < i ==> query(cids[j]).Ok?
  }

  /** The dict items of the pages for `cids`, queried in order through
      `query`, up to the first failure. */
  function Collect(query: string -> Result<seq<Json>, FetchError>, cids: seq<string>): (r: Result<seq<Json>, FetchError>)
    ensures r.Err? <==> exists i :: 0 <= i < |cids| && query(cids[i]).Err?
    ensures r.Err? ==> exists i :: 0 <= i < |cids| && query(cids[i]) == Err(r.error) && FirstOk(query, cids, i)
  {
    if cids == [] then Ok([])
    else
      var p := cids[..|cids| - 1];
      var last := cids[|cids| - 1];
      assert forall i :: 0 <= i < |p| ==> p[i] == cids[i];
      match Collect(query, p)
      case Err(e) => Err(e)
      case Ok(found) =>
        match query(last)
        case Err(e) => Err(e)
        case Ok(items) => Ok(found + items)
  }

  /** Every id the loop queries has its page's items in the result, in
      query order. */
  lemma {:induction false} CollectConcatenates(query: string -> Result<seq<Json>, FetchError>, cids: seq<string>)
    requires forall i :: 0 <= i < |cids| ==> query(cids[i]).Ok?
    ensures Collect(query, cids) == Ok(Concat(query, cids))
  {
    if cids != [] {
      var p := cids[..|cids| - 1];
      assert forall i :: 0 <= i < |p| ==> p[i] == cids[i];
      CollectConcatenates(query, p);
    }
  }

  /** The items of the pages for `cids`, all of which succeed. */
  function Concat(query: string -> Result<seq<Json>, FetchError>, cids: seq<string>): seq<Json>
    requires forall i :: 0 <= i < |cids| ==> query(cids[i]).Ok?
  {
    if cids == [] then []
    else
      var p := cids[..|cids| - 1];
      assert forall i :: 0 <= i < |p| ==> p[i] == cids[i];
      Concat(query, p) + query(cids[|cids| - 1]).value
  }

  /** `sorted(c for c in condition_ids if c)`. */
  method SortedConditionIds(ids: set<string>) returns (r: seq<string>)
    ensures StrictlySorted(r)
    ensures forall x :: x in r <==> x in ids && x != ""
  {
    r := [];
    var rest := ids;
    while rest != {}
      invariant rest <= ids
      invariant StrictlySorted(r)
      invariant forall x :: x in r <==> x in ids - rest && x != ""
      decreases |rest|
    {
      var x :| x in rest;
      rest := rest - {x};
      if x != "" {
        r := Insert(x, r);
      }
    }
  }

  /** `_fetch_predictions_for_condition_ids`: the non-empty ids in sorted
      order are queried one after the other, and of the dict items found
      only the first of each (condition id, outcome) pair is kept. A failed
      query ends the whole fetch with its error. */
  method FetchPredictions(c: Config, session: Request -> Response, time: int, ids: set<string>)
    returns (out: Result<seq<Json>, FetchError>, queried: seq<string>)
    ensures StrictlySorted(queried)
    ensures forall x :: x in queried <==> x in ids && x != ""
    ensures var all := Collect(cid => Query(c, session, time, cid), queried);
      && (out.Err? <==> all.Err?)
      && (out.Err? ==> out.error == all.error)
      && (out.Ok? ==> out.value == DedupBy(all.value, PredictionKey))
  {
    queried := SortedConditionIds(ids);
    out := FetchAll(cid => Query(c, session, time, cid), queried);
  }

  /** The loops of `FetchPredictions` over the ids, with `query` giving the
      dict items of each id's page. */
  method FetchAll(query: string -> Result<seq<Json>, FetchError>, cids: seq<string>)
    returns (out: Result<seq<Json>, FetchError>)
    ensures var all := Collect(query, cids);
      && (out.Err? <==> all.Err?)
      && (out.Err? ==> out.error == all.error)
      && (out.Ok? ==> out.value == DedupBy(all.value, PredictionKey))
  {
    var kept: seq<Json> := [];
    var seen: set<(string, string)> := {};
    ghost var found: seq<Json> := [];
    var n := 0;
    while n < |cids|
      invariant 0 <= n <= |cids|
      invariant Collect(query, cids[..n]) == Ok(found)
      invariant kept == DedupBy(found, PredictionKey)
      invariant seen == KeysOf(found, PredictionKey)
    {
      var res := query(cids[n]);
      assert cids[..n + 1][..n] == cids[..n];
      if res.Err? {
        CollectStopsAtError(query, cids, n + 1);
        out := Err(res.error);
        return;
      }
      var items := res.value;
      kept, seen := DedupExtend(kept, seen, found, items, PredictionKey);
      found := found + items;
      n := n + 1;
    }
    assert cids[..n] == cids;
    out := Ok(kept);
  }

  /** Once a query fails, querying further ids does not change the error. */
  lemma {:induction false} CollectStopsAtError(query: string -> Result<seq<Json>, FetchError>, cids: seq<string>, m: nat)
    requires m <= |cids|
    requires Collect(query, cids[..m]).Err?
    ensures Collect(query, cids) == Collect(query, cids[..m])
    decreases |cids| - m
  {
    if m < |cids| {
      assert cids[..m + 1][..m] == cids[..m];
      CollectStopsAtError(query, cids, m + 1);
    } else {
      assert cids[..m] == cids;
    }
  }

  /** The keys of the rows, row after row. */
  function AllKeys(rows: seq<Json>): seq<string> {
    if rows == [] then []
    else AllKeys(rows[..|rows| - 1]) + Keys(rows[|rows| - 1])
  }

  /** A name is among the collected keys exactly when some row has it. */
  lemma {:induction false} AllKeysCover(rows: seq<Json>)
    ensures forall k :: k in AllKeys(rows) <==> exists i :: 0 <= i < |rows| && k in Keys(rows[i])
  {
    if rows != [] {
      var p := rows[..|rows| - 1];
      AllKeysCover(p);
      assert forall i :: 0 <= i < |p| ==> p[i] == rows[i];
    }
  }

  /** The field names `_write_csv` collects: every key of every row, once,
      in the order keys are first seen. */
  function FieldNames(rows: seq<Json>): seq<string> {
    DedupBy(AllKeys(rows), Same)
  }

  /** A name is a field name exactly when some row has that key. */
  lemma FieldNamesCover(rows: seq<Json>)
    ensures forall k :: k in FieldNames(rows) <==> exists i :: 0 <= i < |rows| && k in Keys(rows[i])
  {
    var all := AllKeys(rows);
    AllKeysCover(rows);
    DedupByKeys(all, Same);
    SameKeys(all);
    SameKeys(FieldNames(rows));
  }

  /** No field name is repeated, and names follow the order in which their
      keys first occur. */
  lemma FieldNamesOrdered(rows: seq<Json>)
    ensures forall i, j :: 0 <= i < j < |FieldNames(rows)| ==> FieldNames(rows)[i] != FieldNames(rows)[j]
    ensures forall i, j :: 0 <= i < j < |FieldNames(rows)| ==>
      && FieldNames(rows)[i] in KeysOf(AllKeys(rows), Same)
      && FieldNames(rows)[j] in KeysOf(AllKeys(rows), Same)
      && FirstIndex(AllKeys(rows), Same, FieldNames(rows)[i]) < FirstIndex(AllKeys(rows), Same, FieldNames(rows)[j])
  {
    var all := AllKeys(rows);
    var names := FieldNames(rows);
    assert names == DedupBy(all, Same);
    DedupByDistinct(all, Same);
    DedupByFirstSeen(all, Same);
    forall i, j | 0 <= i < j < |names|
      ensures names[i] != names[j]
      ensures names[i] in KeysOf(all, Same) && names[j] in KeysOf(all, Same)
      ensures FirstIndex(all, Same, names[i]) < FirstIndex(all, Same, names[j])
    {
      assert Same(names[i]) == names[i] && Same(names[j]) == names[j];
      assert Same(names[i]) != Same(names[j]);
    }
  }

  /** The header of the file `_write_csv` writes: none for no rows (the
      file is left empty), otherwise the field names. The loops are
      `_write_csv`'s, with its `seen` set. */
  method CsvHeader(rows: seq<Json>) returns (header: Option<seq<string>>)
    ensures header.None? <==> rows == []
    ensures header.Some? ==> header.value == FieldNames(rows)
  {
    if rows == [] {
      return None;
    }
    var fieldnames: seq<string> := [];
    var seen: set<string> := {};
    var i := 0;
    while i < |rows|
      invariant 0 <= i <= |rows|
      invariant fieldnames == DedupBy(AllKeys(rows[..i]), Same)
      invariant seen == KeysOf(AllKeys(rows[..i]), Same)
    {
      assert rows[..i + 1][..i] == rows[..i];
      fieldnames, seen := DedupExtend(fieldnames, seen, AllKeys(rows[..i]), Keys(rows[i]), Same);
      i := i + 1;
    }
    assert rows[..i] == rows;
    return Some(fieldnames);
  }

  /** `str(g.get("condition_id") or "").strip()`: the key `main` files a
      game under; an empty key files nothing. */
  function CidOf(g: Json): string {
    Strip(TextOr(Lookup(g, "condition_id")))
  }

  /** The games after the `by_cid` pass: one per condition id, or all of
      them when none has one. */
  function DedupGames(games: seq<Json>): seq<Json> {
    ValuesOr(games, CidOf)
  }

  /** When some game has a condition id, every game the `by_cid` pass
      keeps has one and no two share it; when none has one the games are
      left as they were. */
  lemma DedupGamesDistinct(games: seq<Json>)
    ensures KeySet(games, CidOf) != {} ==>
      forall i :: 0 <= i < |DedupGames(games)| ==> CidOf(DedupGames(games)[i]) in KeySet(games, CidOf)
    ensures forall i, j :: 0 <= i < j < |DedupGames(games)| && KeySet(games, CidOf) != {} ==>
      CidOf(DedupGames(games)[i]) != CidOf(DedupGames(games)[j])
    ensures KeySet(games, CidOf) == {} ==> DedupGames(games) == games
  {
    ValuesOrShape(games, CidOf);
    assert DedupGames(games) == ValuesOr(games, CidOf);
  }

  /** Every game kept by the `by_cid` pass is an input game. */
  lemma DedupGamesFromInput(games: seq<Json>)
    ensures forall n :: 0 <= n < |DedupGames(games)| ==>
      exists i :: 0 <= i < |games| && games[i] == DedupGames(games)[n]
  {
    ValuesOrFromInput(games, CidOf);
    assert DedupGames(games) == ValuesOr(games, CidOf);
  }

  /** The `by_cid` pass loses no condition id and adds none. */
  lemma DedupGamesKeySet(games: seq<Json>)
    ensures KeySet(DedupGames(games), CidOf) == KeySet(games, CidOf)
  {
    ValuesOrKeySet(games, CidOf);
    assert DedupGames(games) == ValuesOr(games, CidOf);
  }

  /** `today_condition_ids`: the stripped rendering of every truthy
      `condition_id` among the games. */
  function TodayConditionIds(games: seq<Json>): set<string> {
    set i | 0 <= i < |games| && Truthy(Lookup(games[i], "condition_id")) ::
      Strip(Render(Lookup(games[i], "condition_id")))
  }

  /** Apart from a blank id, the ids queried are exactly the keys the
      `by_cid` pass files games under. */
  lemma QueriedIdsAreGameCids(games: seq<Json>)
    ensures TodayConditionIds(games) - {""} == KeySet(games, CidOf)
  {
    forall k | k in KeySet(games, CidOf) ensures k in TodayConditionIds(games) {
      var i :| 0 <= i < |games| && CidOf(games[i]) != "" && CidOf(games[i]) == k;
      CidOfTruthy(games[i]);
    }
    forall k | k in TodayConditionIds(games) - {""} ensures k in KeySet(games, CidOf) {
      var i :| 0 <= i < |games| && Truthy(Lookup(games[i], "condition_id"))
        && Strip(Render(Lookup(games[i], "condition_id"))) == k;
      CidOfTruthy(games[i]);
    }
  }

  /** A game has a non-empty condition id only when its `condition_id` is
      truthy, and then the id is the stripped rendering. */
  lemma CidOfTruthy(g: Json)
    ensures CidOf(g) != "" ==> Truthy(Lookup(g, "condition_id"))
    ensures Truthy(Lookup(g, "condition_id")) ==> CidOf(g) == Strip(Render(Lookup(g, "condition_id")))
  {
    var v := Lookup(g, "condition_id");
    assert CidOf(g) == Strip(TextOr(v));
    if !Truthy(v) {
      assert TextOr(v) == "";
    }
  }

  /** The condition ids queried for today's games are those of the games
      before de-duplication, blank ids aside. */
  lemma QueriedIdsSurviveDedup(games: seq<Json>)
    ensures TodayConditionIds(DedupGames(games)) - {""} == KeySet(games, CidOf)
  {
    QueriedIdsAreGameCids(DedupGames(games));
    DedupGamesKeySet(games);
  }
}

=== FILE: index.dfy ===
/** A dict filled by `for x in s: k = key(x); if k: d[k] = x`: a key keeps
    the position of its first insertion and the value of its last. This is
    the `by_cid` table the export script builds over the games. */
module Index {
  import opened Dedup

  /** The non-empty keys of `s`. */
  function KeySet<T>(s: seq<T>, key: T -> string): set<string> {
    set i | 0 <= i < |s| && key(s[i]) != "" :: key(s[i])
  }

  /** Appending one element adds its key, when it is not empty. */
  lemma KeySetAppend<T>(s: seq<T>, x: T, key: T -> string)
    ensures KeySet(s + [x], key) == KeySet(s, key) + (if key(x) != "" then {key(x)} else {})
  {
    var s' := s + [x];
    assert forall i :: 0 <= i < |s| ==> s'[i] == s[i];
    assert s'[|s|] == x;
    forall k | k in KeySet(s', key) ensures k in KeySet(s, key) || (key(x) != "" && k == key(x)) {
      var i :| 0 <= i < |s'| && key(s'[i]) != "" && key(s'[i]) == k;
      if i < |s| {
        assert key(s[i]) == k;
      }
    }
  }

  /** The non-empty keys of `s`, in order, repeats kept. */
  function NonEmptyKeys<T>(s: seq<T>, key: T -> string): seq<string>
  {
    if s == [] then []
    else
      var p := s[..|s| - 1];
      var k := key(s[|s| - 1]);
      NonEmptyKeys(p, key) + (if k != "" then [k] else [])
  }

  lemma {:induction false} NonEmptyKeysSet<T>(s: seq<T>, key: T -> string)
    ensures forall k :: k in NonEmptyKeys(s, key) <==> k in KeySet(s, key)
  {
    if s != [] {
      var p := s[..|s| - 1];
      var x := s[|s| - 1];
      assert s == p + [x];
      NonEmptyKeysSet(p, key);
      KeySetAppend(p, x, key);
    }
  }

  /** The dict: its keys in insertion order and its entries. */
  datatype Table<T> = Table(order: seq<string>, rows: map<string, T>)

  /** The dict after the loop over `s`. */
  function IndexBy<T>(s: seq<T>, key: T -> string): (t: Table<T>)
    ensures forall k :: k in t.rows <==> k in t.order
    ensures t.rows.Keys == KeySet(s, key)
    ensures forall k :: k in t.rows ==> key(t.rows[k]) == k
    ensures forall i, j :: 0 <= i < j < |t.order| ==> t.order[i] != t.order[j]
  {
    if s == [] then Table([], map[])
    else
      var p := s[..|s| - 1];
      var x := s[|s| - 1];
      var t := IndexBy(p, key);
      var k := key(x);
      assert s == p + [x];
      KeySetAppend(p, x, key);
      if k == "" then t
      else Table(if k in t.rows then t.order else t.order + [k], t.rows[k := x])
  }

  /** The dict's keys, in insertion order, are the non-empty keys in order
      of first occurrence. */
  lemma {:induction false} IndexOrder<T>(s: seq<T>, key: T -> string)
    ensures IndexBy(s, key).order == DedupBy(NonEmptyKeys(s, key), Same)
  {
    if s != [] {
      var p := s[..|s| - 1];
      var x := s[|s| - 1];
      IndexOrder(p, key);
      var k := key(x);
      if k != "" {
        var ks := NonEmptyKeys(p, key);
        DedupByAppend(ks, k, Same);
        SameKeys(ks);
        NonEmptyKeysSet(p, key);
        assert NonEmptyKeys(s, key) == ks + [k];
        var t := IndexBy(p, key);
        assert IndexBy(s, key).order == if k in t.rows then t.order else t.order + [k];
      } else {
        assert NonEmptyKeys(s, key) == NonEmptyKeys(p, key);
        assert IndexBy(s, key) == IndexBy(p, key);
      }
    }
  }

  /** The value the dict holds for a key is the last element with that key. */
  lemma {:induction false} IndexLastWins<T>(s: seq<T>, key: T -> string, i: nat)
    requires i < |s| && key(s[i]) != ""
    requires forall j :: i < j < |s| ==> key(s[j]) != key(s[i])
    ensures key(s[i]) in IndexBy(s, key).rows
    ensures IndexBy(s, key).rows[key(s[i])] == s[i]
  {
    var p := s[..|s| - 1];
    if i < |s| - 1 {
      assert p[i] == s[i];
      assert forall j :: i < j < |p| ==> p[j] == s[j];
      IndexLastWins(p, key, i);
    }
  }

  /** Every value in the dict is an element of `s`. */
  lemma {:induction false} IndexValuesFromInput<T>(s: seq<T>, key: T -> string)
    ensures forall k :: k in IndexBy(s, key).rows ==>
      exists i :: 0 <= i < |s| && s[i] == IndexBy(s, key).rows[k]
  {
    if s != [] {
      var p := s[..|s| - 1];
      IndexValuesFromInput(p, key);
      assert forall i :: 0 <= i < |p| ==> p[i] == s[i];
    }
  }

  /** `list(d.values()) if d else s`. */
  function ValuesOr<T>(s: seq<T>, key: T -> string): seq<T> {
    var t := IndexBy(s, key);
    if t.rows == map[] then s
    else seq(|t.order|, i requires 0 <= i < |t.order| => t.rows[t.order[i]])
  }

  /** Without a non-empty key the input comes back; otherwise there is one
      element per distinct non-empty key, in the order in which the keys
      first occur in `s`. */
  lemma ValuesOrShape<T>(s: seq<T>, key: T -> string)
    ensures KeySet(s, key) == {} ==> ValuesOr(s, key) == s
    ensures KeySet(s, key) != {} ==>
      && |ValuesOr(s, key)| == |KeySet(s, key)|
      && (forall i :: 0 <= i < |ValuesOr(s, key)| ==> key(ValuesOr(s, key)[i]) in KeySet(s, key))
      && (forall i, j :: 0 <= i < j < |ValuesOr(s, key)| ==> key(ValuesOr(s, key)[i]) != key(ValuesOr(s, key)[j]))
    ensures KeySet(s, key) != {} ==>
      var firsts := DedupBy(NonEmptyKeys(s, key), Same);
      && |ValuesOr(s, key)| == |firsts|
      && forall i :: 0 <= i < |ValuesOr(s, key)| ==> key(ValuesOr(s, key)[i]) == firsts[i]
  {
    ValuesOrDistinct(s, key);
    ValuesOrFirstOccurrence(s, key);
  }

  lemma ValuesOrDistinct<T>(s: seq<T>, key: T -> string)
    ensures KeySet(s, key) != {} ==>
      && |ValuesOr(s, key)| == |KeySet(s, key)|
      && (forall i :: 0 <= i < |ValuesOr(s, key)| ==> key(ValuesOr(s, key)[i]) in KeySet(s, key))
      && (forall i, j :: 0 <= i < j < |ValuesOr(s, key)| ==> key(ValuesOr(s, key)[i]) != key(ValuesOr(s, key)[j]))
  {
    var t := IndexBy(s, key);
    ValuesOrFollowsOrder(s, key);
    if t.rows != map[] {
      DistinctCardinality(t.order);
      SameKeys(t.order);
      assert KeysOf(t.order, Same) == t.rows.Keys;
    }
  }

  lemma ValuesOrFirstOccurrence<T>(s: seq<T>, key: T -> string)
    ensures KeySet(s, key) != {} ==>
      var firsts := DedupBy(NonEmptyKeys(s, key), Same);
      && |ValuesOr(s, key)| == |firsts|
      && forall i :: 0 <= i < |ValuesOr(s, key)| ==> key(ValuesOr(s, key)[i]) == firsts[i]
  {
    ValuesOrFollowsOrder(s, key);
    IndexOrder(s, key);
  }

  /** The values come in the dict's key order. */
  lemma ValuesOrFollowsOrder<T>(s: seq<T>, key: T -> string)
    ensures IndexBy(s, key).rows != map[] ==>
      && |ValuesOr(s, key)| == |IndexBy(s, key).order|
      && forall i :: 0 <= i < |ValuesOr(s, key)| ==> key(ValuesOr(s, key)[i]) == IndexBy(s, key).order[i]
  {
    var t := IndexBy(s, key);
    var r := ValuesOr(s, key);
    if t.rows != map[] {
      forall i | 0 <= i < |r| ensures key(r[i]) == t.order[i] {
        assert t.order[i] in t.order;
        assert r[i] == t.rows[t.order[i]];
      }
    }
  }

  /** Every non-empty key is represented, by its last element. */
  lemma ValuesOrKeepsLast<T>(s: seq<T>, key: T -> string, i: nat)
    requires i < |s| && key(s[i]) != ""
    requires forall j :: i < j < |s| ==> key(s[j]) != key(s[i])
    ensures exists n :: 0 <= n < |ValuesOr(s, key)| && ValuesOr(s, key)[n] == s[i]
  {
    IndexLastWins(s, key, i);
    var t := IndexBy(s, key);
    var k := key(s[i]);
    assert k in KeySet(s, key);
    assert k in t.order;
    var n := IndexOf(t.order, k);
    assert ValuesOr(s, key)[n] == s[i];
  }

  /** The elements kept are elements of `s`. */
  lemma ValuesOrFromInput<T>(s: seq<T>, key: T -> string)
    ensures forall n :: 0 <= n < |ValuesOr(s, key)| ==>
      exists i :: 0 <= i < |s| && s[i] == ValuesOr(s, key)[n]
  {
    IndexValuesFromInput(s, key);
    var t := IndexBy(s, key);
    var r := ValuesOr(s, key);
    forall n | 0 <= n < |r|
      ensures exists i :: 0 <= i < |s| && s[i] == r[n]
    {
      if t.rows != map[] {
        var k := t.order[n];
        assert k in t.order;
        assert r[n] == t.rows[k];
        var i :| 0 <= i < |s| && s[i] == t.rows[k];
      } else {
        assert r == s;
      }
    }
  }

  /** The kept elements carry exactly the non-empty keys of `s`. */
  lemma ValuesOrKeySet<T>(s: seq<T>, key: T -> string)
    ensures KeySet(ValuesOr(s, key), key) == KeySet(s, key)
  {
    var t := IndexBy(s, key);
    var r := ValuesOr(s, key);
    ValuesOrShape(s, key);
    if t.rows != map[] {
      forall k | k in KeySet(s, key) ensures k in KeySet(r, key) {
        var n := IndexOf(t.order, k);
        assert r[n] == t.rows[k];
        assert key(r[n]) == k;
      }
    }
  }

  /** Position of `k` in `s`. */
  function IndexOf(s: seq<string>, k: string): (i: nat)
    requires k in s
    ensures i < |s| && s[i] == k
  {
    if s[0] == k then 0 else 1 + IndexOf(s[1..], k)
  }

  /** A sequence without repeats has as many elements as its set. */
  lemma {:induction false} DistinctCardinality(s: seq<string>)
    requires forall i, j :: 0 <= i < j < |s| ==> s[i] != s[j]
    ensures |KeysOf(s, Same)| == |s|
  {
    if s != [] {
      var p := s[..|s| - 1];
      var x := s[|s| - 1];
      assert s == p + [x];
      assert forall i :: 0 <= i < |p| ==> p[i] == s[i];
      DistinctCardinality(p);
      KeysOfAppend(p, x, Same);
      SameKeys(p);
    }
  }
}

=== FILE: json.dfy ===
/** Decoded JSON values as the client sees them after `response.json()`:
    Python's `None`, `bool`, `int`, `str`, `list` and `dict`. A `dict` keeps
    its insertion order, so an object is a sequence of fields. Lookups take
    the first field with a key, which agrees with Python on objects whose
    keys are distinct. */
module Json {
  import opened Outcomes
  import opened Text

  datatype Json =
    | JNull
    | JBool(b: bool)
    | JInt(i: int)
    | JString(s: string)
    | JArray(items: seq<Json>)
    | JObject(fields: seq<Field>)

  datatype Field = Field(key: string, value: Json)

  /** Python truthiness: `None`, `False`, `0` and empty strings, lists and
      dicts are false. */
  predicate Truthy(j: Json) {
    match j
    case JNull => false
    case JBool(b) => b
    case JInt(i) => i != 0
    case JString(s) => s != []
    case JArray(xs) => xs != []
    case JObject(fs) => fs != []
  }

  function FieldValue(fields: seq<Field>, key: string): (r: Option<Json>)
    ensures r.Some? <==> exists i :: 0 <= i < |fields| && fields[i].key == key
  {
    if fields == [] then None
    else if fields[0].key == key then Some(fields[0].value)
    else FieldValue(fields[1..], key)
  }

  /** `d.get(key, default)` with the default left to the caller: `None` when
      the value is not a dict or has no such key. */
  function Get(o: Json, key: string): Option<Json> {
    if o.JObject? then FieldValue(o.fields, key) else None
  }

  /** `d.get(key)`: a missing key reads as `None`. */
  function Lookup(o: Json, key: string): Json {
    match Get(o, key)
    case Some(v) => v
    case None => JNull
  }

  /** `list(d.keys())` in insertion order. */
  function Keys(o: Json): seq<string> {
    if o.JObject? then seq(|o.fields|, i requires 0 <= i < |o.fields| => o.fields[i].key) else []
  }

  /** `str(v)` of a scalar other than a string. */
  function ScalarText(j: Json): string
    requires !j.JString? && !j.JArray? && !j.JObject?
  {
    match j
    case JNull => "None"
    case JBool(b) => if b then "True" else "False"
    case JInt(i) => IntToString(i)
  }

  /** `repr(v)`, as `str` renders the elements of a list or dict. */
  function Repr(j: Json): string
    decreases j
  {
    match j
    case JString(s) => "'" + s + "'"
    case JArray(xs) =>
      "[" + Join(seq(|xs|, k requires 0 <= k < |xs| => Repr(xs[k])), ", ") + "]"
    case JObject(fs) =>
      "{" + Join(seq(|fs|, k requires 0 <= k < |fs| => "'" + fs[k].key + "': " + Repr(fs[k].value)), ", ") + "}"
    case _ => ScalarText(j)
  }

  /** `str(v)`: a string is itself, a container its `repr`. */
  function Render(j: Json): string {
    match j
    case JString(s) => s
    case JArray(_) => Repr(j)
    case JObject(_) => Repr(j)
    case _ => ScalarText(j)
  }

  /** `str(v or "")`: the rendering of a truthy value, else the empty string. */
  function TextOr(j: Json): string {
    if Truthy(j) then Render(j) else ""
  }
}

=== FILE: order.dfy ===
/** Python's ordering of `str` values (lexicographic by code point) and the
    strictly increasing sequences `sorted` returns for a set of strings. */
module Order {

  /** `a < b` on Python strings. */
  predicate Less(a: string, b: string)
    decreases |a|
  {
    if a == [] then b != []
    else if b == [] then false
    else if a[0] != b[0] then a[0] < b[0]
    else Less(a[1..], b[1..])
  }

  lemma {:induction false} LessIrreflexive(a: string)
    ensures !Less(a, a)
    decreases |a|
  {
    if a != [] {
      LessIrreflexive(a[1..]);
    }
  }

  lemma {:induction false} LessTotal(a: string, b: string)
    ensures a == b || Less(a, b) || Less(b, a)
    decreases |a|
  {
    if a != [] && b != [] && a[0] == b[0] {
      LessTotal(a[1..], b[1..]);
      if a[1..] == b[1..] {
        assert a == [a[0]] + a[1..] && b == [b[0]] + b[1..];
      }
    }
  }

  lemma {:induction false} LessTransitive(a: string, b: string, c: string)
    requires Less(a, b) && Less(b, c)
    ensures Less(a, c)
    decreases |a|
  {
    if a != [] && a[0] == b[0] && b[0] == c[0] {
      LessTransitive(a[1..], b[1..], c[1..]);
    }
  }

  lemma LessAsymmetric(a: string, b: string)
    requires Less(a, b)
    ensures !Less(b, a)
  {
    if Less(b, a) {
      LessTransitive(a, b, a);
      LessIrreflexive(a);
    }
  }

  /** Strictly increasing, hence free of duplicates. */
  predicate StrictlySorted(s: seq<string>) {
    forall i, j :: 0 <= i < j < |s| ==> Less(s[i], s[j])
  }

  /** Inserts a new string into a strictly increasing sequence. */
  function Insert(x: string, s: seq<string>): (r: seq<string>)
    requires StrictlySorted(s) && x !in s
    ensures StrictlySorted(r)
    ensures forall c :: c in r <==> c == x || c in s
    ensures |r| == |s| + 1
  {
    if s == [] then [x]
    else if Less(x, s[0]) then
      assert forall j :: 0 <= j < |s| ==> Less(x, s[j]) by {
        forall j | 0 <= j < |s| ensures Less(x, s[j]) {
          if j > 0 {
            LessTransitive(x, s[0], s[j]);
          }
        }
      }
      [x] + s
    else
      LessTotal(x, s[0]);
      var t := Insert(x, s[1..]);
      assert forall j :: 0 <= j < |t| ==> Less(s[0], t[j]) by {
        forall j | 0 <= j < |t| ensures Less(s[0], t[j]) {
          assert t[j] in t;
          if t[j] != x {
            var k :| 1 <= k < |s| && s[k] == t[j];
          }
        }
      }
      [s[0]] + t
  }

  /** Two strictly increasing sequences with the same elements are equal:
      `sorted` of a set does not depend on the set's iteration order. */
  lemma {:induction false} SortedUnique(a: seq<string>, b: seq<string>)
    requires StrictlySorted(a) && StrictlySorted(b)
    requires forall c :: c in a <==> c in b
    ensures a == b
  {
    if a != [] {
      assert a[0] in a;
    }
    if b != [] {
      assert b[0] in b;
    }
    if a != [] && b != [] {
      if a[0] != b[0] {
        assert a[0] in a && b[0] in b;
        var i :| 0 <= i < |b| && b[i] == a[0];
        var j :| 0 <= j < |a| && a[j] == b[0];
        assert Less(b[0], a[0]);
        assert Less(a[0], b[0]);
        LessAsymmetric(a[0], b[0]);
      }
      forall c ensures c in a[1..] <==> c in b[1..] {
        if c in a[1..] {
          var i :| 1 <= i < |a| && a[i] == c;
          LessIrreflexive(a[0]);
          assert c in b && c != b[0];
          var k :| 0 <= k < |b| && b[k] == c;
          assert b[1..][k - 1] == c;
        }
        if c in b[1..] {
          var i :| 1 <= i < |b| && b[i] == c;
          LessIrreflexive(b[0]);
          assert c in a && c != a[0];
          var k :| 0 <= k < |a| && a[k] == c;
          assert a[1..][k - 1] == c;
        }
      }
      SortedUnique(a[1..], b[1..]);
    }
  }
}

=== FILE: outcomes.dfy ===
/** Failure-carrying values shared by the rest of the model: `Option` stands
    for Python's `X | None`, `Result` for a return value or a raised exception. */
module Outcomes {

  datatype Option<+T> = None | Some(value: T)

  datatype Result<+T, +E> = Ok(value: T) | Err(error: E)
}

=== FILE: pagination.dfy ===
/** Cursor pagination, `_iter_items` of `src/ishmael_insights_api/client.py`:
    request a page with the base parameters plus `limit` and the current
    cursor, yield its items (non-dicts wrapped as `{"value": item}`), and
    follow `next_cursor` until a page has no item list or no truthy cursor.
    The generator is modelled fully drained, as `list(...)` drains it; the
    server may hand out cursors forever, so the drain carries a fuel bound.
    The iteration is stated over `steps`, what the loop does with the page
    at each cursor; `Pages` builds it from what `_request` answers, and
    `Answer` builds that from the client and its session. */
module Pagination {
  import opened Outcomes
  import opened Json
  import opened Client

  /** Everything fixed across one pagination: the client, its session, the
      endpoint, the caller's base parameters and the page size. */
  datatype Source = Source(
    config: Config,
    session: Request -> Response,
    path: string,
    base: map<string, Json>,
    limit: int)

  /** How a drain ended: the iterator returned, `_request` raised, or the
      fuel ran out first. */
  datatype Stop = Exhausted | Raised(error: ApiError) | OutOfFuel

  /** Items yielded, the cursor each request carried, in order, and how it
      ended. */
  datatype Drain = Drain(items: seq<Json>, cursors: seq<Json>, stop: Stop)

  /** A dict is yielded as is, anything else as `{"value": item}`. */
  function Wrap(item: Json): (w: Json)
    ensures w.JObject?
    ensures item.JObject? ==> w == item
    ensures !item.JObject? ==> Keys(w) == ["value"] && Lookup(w, "value") == item
  {
    if item.JObject? then item else JObject([Field("value", item)])
  }

  function WrapAll(items: seq<Json>): (ws: seq<Json>)
    ensures |ws| == |items|
    ensures forall i :: 0 <= i < |ws| ==> ws[i] == Wrap(items[i])
  {
    seq(|items|, i requires 0 <= i < |items| => Wrap(items[i]))
  }

  /** The request for one page: a GET of the endpoint whose parameters are
      the base parameters with `limit` and `cursor` overridden, then filtered
      of `None` by `_request`; the caller's map itself is not touched. */
  function PageRequest(src: Source, cursor: Json): (req: Request)
    ensures req.verb == "GET" && req.url == Url(src.config, src.path) && req.headers == Headers(src.config)
    ensures "limit" in req.params && req.params["limit"] == JInt(src.limit)
    ensures "cursor" in req.params <==> cursor != JNull
    ensures "cursor" in req.params ==> req.params["cursor"] == cursor
    ensures forall k :: k != "limit" && k != "cursor" ==>
      (k in req.params <==> k in src.base && src.base[k] != JNull)
    ensures forall k :: k in req.params && k != "limit" && k != "cursor" ==>
      req.params[k] == src.base[k]
  {
    PageParamsSent(src.base, src.limit, cursor);
    BuildRequest(src.config, "GET", src.path, PageParams(src, cursor))
  }

  /** The `params` dict `_iter_items` hands to `_request` for one page. */
  function PageParams(src: Source, cursor: Json): map<string, Json> {
    src.base["limit" := JInt(src.limit)]["cursor" := cursor]
  }

  /** The parameters of one page request, after `None` values are dropped. */
  lemma PageParamsSent(base: map<string, Json>, limit: int, cursor: Json)
    ensures var sent := Transmitted(base["limit" := JInt(limit)]["cursor" := cursor]);
      && "limit" in sent && sent["limit"] == JInt(limit)
      && ("cursor" in sent <==> cursor != JNull)
      && ("cursor" in sent ==> sent["cursor"] == cursor)
      && (forall k :: k != "limit" && k != "cursor" ==> (k in sent <==> k in base && base[k] != JNull))
      && (forall k :: k in sent && k != "limit" && k != "cursor" ==> sent[k] == base[k])
  {
    var params := base["limit" := JInt(limit)]["cursor" := cursor];
    assert "limit" != "cursor";
    assert params["limit"] == JInt(limit);
    assert forall k :: k != "limit" && k != "cursor" ==> (k in params <==> k in base);
    assert forall k :: k in params && k != "limit" && k != "cursor" ==> params[k] == base[k];
  }

  /** What `_request("GET", path, params=...)` gives for the page at each cursor. */
  function Answer(src: Source): Json -> Result<Json, ApiError> {
    cursor => Call(src.config, src.session, "GET", src.path, PageParams(src, cursor))
  }

  /** `payload.get("items")` when it is a list. */
  function ItemList(page: Json): Option<seq<Json>> {
    match Lookup(page, "items")
    case JArray(xs) => Some(xs)
    case _ => None
  }

  /** What one page does to the iteration: `_request` raised, the iterator
      returns after this page's items, or it continues at a new cursor. */
  datatype Step = Failed(error: ApiError) | Final(items: seq<Json>) | Continue(items: seq<Json>, next: Json)

  /** One turn of the `while True` loop on the result of `_request`. */
  function StepOf(res: Result<Json, ApiError>): (s: Step)
    ensures s.Failed? <==> res.Err?
    ensures s.Failed? ==> s.error == res.error
    ensures s.Continue? <==>
      res.Ok? && ItemList(res.value).Some? && Truthy(Lookup(res.value, "next_cursor"))
    ensures s.Continue? ==> s.next == Lookup(res.value, "next_cursor")
    ensures res.Ok? && ItemList(res.value).None? ==> s == Final([])
    ensures res.Ok? && ItemList(res.value).Some? ==> s.items == WrapAll(ItemList(res.value).value)
    ensures !s.Failed? ==> forall j :: 0 <= j < |s.items| ==> s.items[j].JObject?
  {
    match res
    case Err(e) => Failed(e)
    case Ok(page) =>
      match ItemList(page)
      case None => Final([])
      case Some(xs) =>
        var next := Lookup(page, "next_cursor");
        if Truthy(next) then Continue(WrapAll(xs), next) else Final(WrapAll(xs))
  }

  /** What the loop does with the page at each cursor, given what
      `_request` answers for it. */
  function Pages(answer: Json -> Result<Json, ApiError>): Json -> Step {
    cursor => StepOf(answer(cursor))
  }

  /** The steps of real pages: only dicts are yielded and iteration goes on
      only at a truthy cursor. */
  ghost predicate Sound(steps: Json -> Step) {
    forall c :: WellFormed(steps(c))
  }

  predicate WellFormed(s: Step) {
    && (!s.Failed? ==> forall j :: 0 <= j < |s.items| ==> s.items[j].JObject?)
    && (s.Continue? ==> Truthy(s.next))
  }

  lemma PagesSound(answer: Json -> Result<Json, ApiError>)
    ensures Sound(Pages(answer))
  {
    forall c ensures WellFormed(Pages(answer)(c)) {
      var s := StepOf(answer(c));
      assert Pages(answer)(c) == s;
    }
  }

  /** The drained iteration from `cursor`, allowed at most `fuel` requests. */
  function IterItems(steps: Json -> Step, cursor: Json, fuel: nat): (d: Drain)
    ensures |d.cursors| <= fuel
    ensures d.stop.OutOfFuel? <==> |d.cursors| == fuel && (fuel == 0 || steps(d.cursors[fuel - 1]).Continue?)
    ensures fuel > 0 ==> |d.cursors| >= 1 && d.cursors[0] == cursor
    decreases fuel
  {
    if fuel == 0 then Drain([], [], OutOfFuel)
    else
      match steps(cursor)
      case Failed(e) => Drain([], [cursor], Raised(e))
      case Final(xs) => Drain(xs, [cursor], Exhausted)
      case Continue(xs, next) =>
        var rest := IterItems(steps, next, fuel - 1);
        Drain(xs + rest.items, [cursor] + rest.cursors, rest.stop)
  }

  /** One turn of the drain, as the loop takes it. */
  lemma DrainStep(steps: Json -> Step, cursor: Json, fuel: nat)
    requires fuel > 0
    ensures var d := IterItems(steps, cursor, fuel);
      match steps(cursor)
      case Failed(e) => d == Drain([], [cursor], Raised(e))
      case Final(xs) => d == Drain(xs, [cursor], Exhausted)
      case Continue(xs, next) =>
        var rest := IterItems(steps, next, fuel - 1);
        d == Drain(xs + rest.items, [cursor] + rest.cursors, rest.stop)
  {
  }

  /** The requests a drain of `src` issued, one per page. */
  function Requests(src: Source, d: Drain): (reqs: seq<Request>)
    ensures |reqs| == |d.cursors|
    ensures forall i :: 0 <= i < |reqs| ==> reqs[i] == PageRequest(src, d.cursors[i])
  {
    seq(|d.cursors|, i requires 0 <= i < |d.cursors| => PageRequest(src, d.cursors[i]))
  }

  /** The cursor the page at `cursor` hands on; `None` when iteration stops
      at that page. */
  function Following(steps: Json -> Step, cursor: Json): Json {
    match steps(cursor)
    case Continue(_, next) => next
    case _ => JNull
  }

  /** The cursor of the `k`-th request, counting from the caller's. */
  function CursorAt(steps: Json -> Step, cursor: Json, k: nat): Json
    decreases k
  {
    if k == 0 then cursor else CursorAt(steps, Following(steps, cursor), k - 1)
  }

  /** What the page at `cursor` yields. */
  function PageItems(steps: Json -> Step, cursor: Json): seq<Json> {
    match steps(cursor)
    case Failed(_) => []
    case Final(xs) => xs
    case Continue(xs, _) => xs
  }

  function Flatten(pages: seq<seq<Json>>): seq<Json> {
    if pages == [] then [] else pages[0] + Flatten(pages[1..])
  }

  /** The pages of the first `n` requests, in order. */
  function PagesFrom(steps: Json -> Step, cursor: Json, n: nat): seq<seq<Json>> {
    seq(n, i requires 0 <= i < n => PageItems(steps, CursorAt(steps, cursor, i)))
  }

  /** The requests of a drain follow the chain of cursors: the first carries
      the caller's cursor and the `i`-th the `i`-th cursor of the chain;
      every request but the last continued the iteration. */
  lemma {:induction false} DrainFollowsCursors(steps: Json -> Step, cursor: Json, fuel: nat)
    ensures var d := IterItems(steps, cursor, fuel);
      forall i :: 0 <= i < |d.cursors| ==>
        d.cursors[i] == CursorAt(steps, cursor, i) && (i + 1 < |d.cursors| ==> steps(d.cursors[i]).Continue?)
    decreases fuel
  {
    var d := IterItems(steps, cursor, fuel);
    if fuel > 0 && |d.cursors| > 1 {
      var next := Following(steps, cursor);
      var rest := IterItems(steps, next, fuel - 1);
      assert steps(cursor).Continue?;
      assert d.cursors == [cursor] + rest.cursors;
      DrainFollowsCursors(steps, next, fuel - 1);
      forall i | 0 < i < |d.cursors|
        ensures d.cursors[i] == CursorAt(steps, cursor, i)
      {
        assert d.cursors[i] == rest.cursors[i - 1];
        assert CursorAt(steps, cursor, i) == CursorAt(steps, next, i - 1);
      }
    }
  }

  /** The items of a drain are the concatenated items of the pages its
      requests fetched, in order. */
  lemma {:induction false} DrainItemsArePages(steps: Json -> Step, cursor: Json, fuel: nat)
    ensures var d := IterItems(steps, cursor, fuel);
      d.items == Flatten(PagesFrom(steps, cursor, |d.cursors|))
    decreases fuel
  {
    var d := IterItems(steps, cursor, fuel);
    if fuel > 0 {
      var pages := PagesFrom(steps, cursor, |d.cursors|);
      assert pages[0] == PageItems(steps, cursor);
      if |d.cursors| > 1 {
        var next := Following(steps, cursor);
        var rest := IterItems(steps, next, fuel - 1);
        assert d.items == PageItems(steps, cursor) + rest.items;
        DrainItemsArePages(steps, next, fuel - 1);
        assert pages[1..] == PagesFrom(steps, next, |rest.cursors|);
      } else {
        assert pages[1..] == [];
      }
    }
  }

  /** A drain that did not run out of fuel ends at a page that raised or
      was the last one. */
  lemma {:induction false} DrainStopsAtLastPage(steps: Json -> Step, cursor: Json, fuel: nat)
    ensures var d := IterItems(steps, cursor, fuel);
      !d.stop.OutOfFuel? ==>
        && |d.cursors| > 0
        && var last := d.cursors[|d.cursors| - 1];
           && (d.stop.Exhausted? ==> steps(last).Final?)
           && (d.stop.Raised? ==> steps(last) == Failed(d.stop.error))
    decreases fuel
  {
    var d := IterItems(steps, cursor, fuel);
    if fuel > 0 && |d.cursors| > 1 {
      var next := Following(steps, cursor);
      var rest := IterItems(steps, next, fuel - 1);
      assert d.stop == rest.stop && d.cursors == [cursor] + rest.cursors;
      DrainStopsAtLastPage(steps, next, fuel - 1);
    }
  }

  predicate AllObjects(xs: seq<Json>) {
    forall j :: 0 <= j < |xs| ==> xs[j].JObject?
  }

  predicate TruthyAfterFirst(cursors: seq<Json>) {
    forall i :: 0 < i < |cursors| ==> Truthy(cursors[i])
  }

  /** Over real pages a drain yields only dicts, and every request after
      the first carries a truthy cursor. */
  lemma {:induction false} SoundDrain(steps: Json -> Step, cursor: Json, fuel: nat)
    requires Sound(steps)
    ensures AllObjects(IterItems(steps, cursor, fuel).items)
    ensures TruthyAfterFirst(IterItems(steps, cursor, fuel).cursors)
    decreases fuel
  {
    var d := IterItems(steps, cursor, fuel);
    if fuel > 0 {
      var s := steps(cursor);
      assert WellFormed(s);
      if s.Continue? {
        var rest := IterItems(steps, s.next, fuel - 1);
        SoundDrain(steps, s.next, fuel - 1);
        assert d.items == s.items + rest.items;
        assert d.cursors == [cursor] + rest.cursors;
        forall j | 0 <= j < |d.items| ensures d.items[j].JObject? {
          if j < |s.items| {
            assert d.items[j] == s.items[j];
          } else {
            assert d.items[j] == rest.items[j - |s.items|];
          }
        }
        forall i | 0 < i < |d.cursors| ensures Truthy(d.cursors[i]) {
          assert d.cursors[i] == rest.cursors[i - 1];
          if i == 1 {
            assert rest.cursors[0] == s.next;
          }
        }
      }
    }
  }

  /** Draining a real client yields only dicts and follows only truthy
      cursors after the caller's. */
  lemma ClientDrainSound(src: Source, cursor: Json, fuel: nat)
    ensures AllObjects(IterItems(Pages(Answer(src)), cursor, fuel).items)
    ensures TruthyAfterFirst(IterItems(Pages(Answer(src)), cursor, fuel).cursors)
  {
    PagesSound(Answer(src));
    SoundDrain(Pages(Answer(src)), cursor, fuel);
  }

  /** Fuel is only a bound: once a drain ends by itself, more fuel changes
      nothing. */
  lemma {:induction false} MoreFuelSameDrain(steps: Json -> Step, cursor: Json, fuel: nat, more: nat)
    requires fuel <= more
    requires !IterItems(steps, cursor, fuel).stop.OutOfFuel?
    ensures IterItems(steps, cursor, more) == IterItems(steps, cursor, fuel)
    decreases fuel
  {
    if fuel > 0 {
      var step := steps(cursor);
      if step.Continue? {
        MoreFuelSameDrain(steps, step.next, fuel - 1, more - 1);
      }
    }
  }

  /** `list(self._iter_items(path, base_params=..., page_limit=..., cursor=...))`:
      it yields the items of the drain, and the requests it issued are the
      page requests for the cursors the loop went through. */
  method DrainLoop(src: Source, cursor: Json, fuel: nat)
    returns (items: seq<Json>, requests: seq<Request>, stop: Stop)
    ensures var d := IterItems(Pages(Answer(src)), cursor, fuel);
      items == d.items && requests == Requests(src, d) && stop == d.stop
  {
    var cursors;
    items, cursors, stop := DrainWith(Pages(Answer(src)), cursor, fuel);
    requests := Requests(src, Drain(items, cursors, stop));
  }

  /** The loop's invariant after a turn that ends the iteration. */
  lemma DrainLastTurn(steps: Json -> Step, cursor: Json, fuel: nat, items: seq<Json>,
                      cursors: seq<Json>, next: Json, left: nat)
    requires left > 0 && !steps(next).Continue?
    requires var d := IterItems(steps, next, left);
      IterItems(steps, cursor, fuel) == Drain(items + d.items, cursors + d.cursors, d.stop)
    ensures steps(next).Failed? ==>
      IterItems(steps, cursor, fuel) == Drain(items, cursors + [next], Raised(steps(next).error))
    ensures steps(next).Final? ==>
      IterItems(steps, cursor, fuel) == Drain(items + steps(next).items, cursors + [next], Exhausted)
  {
    DrainStep(steps, next, left);
    assert items + [] == items;
  }

  /** The loop's invariant carried over a turn that continues at the page's
      cursor. */
  lemma DrainNextTurn(steps: Json -> Step, cursor: Json, fuel: nat, items: seq<Json>,
                      cursors: seq<Json>, next: Json, left: nat)
    requires left > 0 && steps(next).Continue?
    requires var d := IterItems(steps, next, left);
      IterItems(steps, cursor, fuel) == Drain(items + d.items, cursors + d.cursors, d.stop)
    ensures var rest := IterItems(steps, steps(next).next, left - 1);
      IterItems(steps, cursor, fuel)
        == Drain((items + steps(next).items) + rest.items, (cursors + [next]) + rest.cursors, rest.stop)
  {
    DrainStep(steps, next, left);
    var rest := IterItems(steps, steps(next).next, left - 1);
    assert items + (steps(next).items + rest.items) == (items + steps(next).items) + rest.items;
    assert cursors + ([next] + rest.cursors) == (cursors + [next]) + rest.cursors;
  }

  /** `_iter_items`'s `while True` loop, where `steps` says what becomes of
      the page requested at each cursor: it goes through the same cursors,
      yields the same items and ends the same way as the drain. */
  method DrainWith(steps: Json -> Step, cursor: Json, fuel: nat)
    returns (items: seq<Json>, cursors: seq<Json>, stop: Stop)
    ensures IterItems(steps, cursor, fuel) == Drain(items, cursors, stop)
  {
    items := [];
    cursors := [];
    var next := cursor;
    var left: nat := fuel;
    ghost var rest := IterItems(steps, cursor, fuel);
    assert [] + rest.items == rest.items && [] + rest.cursors == rest.cursors;
    while true
      invariant rest == IterItems(steps, next, left)
      invariant IterItems(steps, cursor, fuel) == Drain(items + rest.items, cursors + rest.cursors, rest.stop)
      decreases left
    {
      if left == 0 {
        stop := OutOfFuel;
        assert items + [] == items && cursors + [] == cursors;
        return;
      }
      var step := steps(next);
      if !step.Continue? {
        DrainLastTurn(steps, cursor, fuel, items, cursors, next, left);
        cursors := cursors + [next];
        if step.Failed? {
          stop := Raised(step.error);
          return;
        }
        items := items + step.items;
        stop := Exhausted;
        return;
      }
      DrainNextTurn(steps, cursor, fuel, items, cursors, next, left);
      rest := IterItems(steps, step.next, left - 1);
      cursors := cursors + [next];
      items := items + step.items;
      next := step.next;
      left := left - 1;
    }
  }

}

=== FILE: text.dfy ===
/** The Python string primitives the client relies on: `str.strip` and its
    one-sided and character-set variants, `str.join`, `str.split` on one
    character, slicing a prefix, and `str(int)`. Strings are sequences of
    Unicode scalar values; a Python `str` may also hold lone surrogates,
    which a Dafny `char` cannot. */
module Text {

  /** Python's `str.isspace` for one character: the characters of Unicode
      bidirectional class WS, B or S, and the space separators. */
  predicate IsSpace(c: char) {
    || ('\U{9}' <= c <= '\U{D}')
    || ('\U{1C}' <= c <= '\U{20}')
    || c == '\U{85}' || c == '\U{A0}' || c == '\U{1680}'
    || ('\U{2000}' <= c <= '\U{200A}')
    || c == '\U{2028}' || c == '\U{2029}' || c == '\U{202F}'
    || c == '\U{205F}' || c == '\U{3000}'
  }

  /** The first index from `i` on whose character is kept, or `|s|`. */
  function SkipLead(s: string, drop: char -> bool, i: nat): (j: nat)
    requires i <= |s|
    ensures i <= j <= |s|
    ensures forall k :: i <= k < j ==> drop(s[k])
    ensures j < |s| ==> !drop(s[j])
    decreases |s| - i
  {
    if i < |s| && drop(s[i]) then SkipLead(s, drop, i + 1) else i
  }

  /** The end of `s[..e]` once the dropped characters before `e` are gone. */
  function SkipTrail(s: string, drop: char -> bool, e: nat): (j: nat)
    requires e <= |s|
    ensures j <= e
    ensures forall k :: j <= k < e ==> drop(s[k])
    ensures j > 0 ==> !drop(s[j - 1])
    decreases e
  {
    if e > 0 && drop(s[e - 1]) then SkipTrail(s, drop, e - 1) else e
  }

  /** Drops the leading characters satisfying `drop`: what remains is a
      suffix of `s` that does not start with such a character. */
  function LStrip(s: string, drop: char -> bool): (r: string)
    ensures |r| <= |s| && r == s[|s| - |r|..]
    ensures forall i :: 0 <= i < |s| - |r| ==> drop(s[i])
    ensures r != [] ==> !drop(r[0])
  {
    s[SkipLead(s, drop, 0)..]
  }

  /** Drops the trailing characters satisfying `drop`: what remains is a
      prefix of `s` that does not end with such a character. */
  function RStrip(s: string, drop: char -> bool): (r: string)
    ensures |r| <= |s| && r == s[..|r|]
    ensures forall i :: |r| <= i < |s| ==> drop(s[i])
    ensures r != [] ==> !drop(r[|r| - 1])
  {
    s[..SkipTrail(s, drop, |s|)]
  }

  /** `r` is the slice of `s` starting at `a`, and every character of `s`
      outside that slice is a dropped one. */
  predicate TrimmedSlice(s: string, r: string, drop: char -> bool, a: nat) {
    && a + |r| <= |s| && r == s[a..a + |r|]
    && (forall i :: 0 <= i < a ==> drop(s[i]))
    && (forall i :: a + |r| <= i < |s| ==> drop(s[i]))
  }

  /** `r` is `s` with the dropped characters at both ends removed and
      nothing else: a contiguous slice of `s`, only dropped characters
      outside it, and a kept character at each of its ends. */
  ghost predicate StripsTo(s: string, r: string, drop: char -> bool) {
    && (exists a: nat :: TrimmedSlice(s, r, drop, a))
    && (r != [] ==> !drop(r[0]) && !drop(r[|r| - 1]))
  }

  /** `s.strip(chars)` where `drop` says which characters are in `chars`. */
  function StripBy(s: string, drop: char -> bool): (r: string)
    ensures |r| <= |s|
    ensures StripsTo(s, r, drop)
    ensures r != [] ==> !drop(r[0]) && !drop(r[|r| - 1])
    ensures r == [] <==> forall i :: 0 <= i < |s| ==> drop(s[i])
  {
    var l := LStrip(s, drop);
    var r := RStrip(l, drop);
    var a := |s| - |l|;
    assert r == s[a..a + |r|];
    assert forall i :: a + |r| <= i < |s| ==> s[i] == l[i - a];
    assert TrimmedSlice(s, r, drop, a);
    r
  }

  /** `StripsTo` pins the strip down: `StripBy` is the only string it admits. */
  lemma StripsToIsStripBy(s: string, r: string, drop: char -> bool)
    ensures StripsTo(s, r, drop) ==> r == StripBy(s, drop)
  {
    if StripsTo(s, r, drop) {
      var a: nat :| TrimmedSlice(s, r, drop, a);
      if r == [] {
        assert forall i :: 0 <= i < |s| ==> drop(s[i]);
      } else {
        assert s[a] == r[0];
        SkipLeadAt(s, drop, 0, a);
        var l := s[a..];
        assert l == LStrip(s, drop);
        assert forall k :: |r| <= k < |l| ==> l[k] == s[a + k];
        assert l[|r| - 1] == r[|r| - 1];
        SkipTrailAt(l, drop, |l|, |r|);
        assert l[..|r|] == r;
      }
    }
  }

  /** The left strip of `s[i..]` stops at the first kept character. */
  lemma {:induction false} SkipLeadAt(s: string, drop: char -> bool, i: nat, a: nat)
    requires i <= a < |s| && !drop(s[a])
    requires forall k :: i <= k < a ==> drop(s[k])
    ensures SkipLead(s, drop, i) == a
    decreases a - i
  {
    if i < a {
      SkipLeadAt(s, drop, i + 1, a);
    }
  }

  /** The right strip of `s[..e]` stops after the last kept character. */
  lemma {:induction false} SkipTrailAt(s: string, drop: char -> bool, e: nat, b: nat)
    requires 0 < b <= e <= |s| && !drop(s[b - 1])
    requires forall k :: b <= k < e ==> drop(s[k])
    ensures SkipTrail(s, drop, e) == b
    decreases e - b
  {
    if b < e {
      SkipTrailAt(s, drop, e - 1, b);
    }
  }

  /** Neither starts nor ends with whitespace. */
  predicate Trimmed(s: string) {
    s != [] ==> !IsSpace(s[0]) && !IsSpace(s[|s| - 1])
  }

  /** `s.strip()`: surrounding whitespace removed. */
  function Strip(s: string): (r: string)
    ensures |r| <= |s|
    ensures StripsTo(s, r, IsSpace)
    ensures Trimmed(r)
  {
    StripBy(s, IsSpace)
  }

  /** The test for one character, as `strip(c)` applies it. */
  function IsChar(c: char): char -> bool {
    x => x == c
  }

  /** `s.strip(c)` for a single character `c`. */
  function StripChar(s: string, c: char): (r: string)
    ensures |r| <= |s|
    ensures StripsTo(s, r, IsChar(c))
    ensures r != [] ==> r[0] != c && r[|r| - 1] != c
  {
    StripBy(s, IsChar(c))
  }

  /** `s.rstrip(c)` for a single character `c`. */
  function RStripChar(s: string, c: char): string {
    RStrip(s, IsChar(c))
  }

  /** `s.lstrip(c)` for a single character `c`. */
  function LStripChar(s: string, c: char): string {
    LStrip(s, IsChar(c))
  }

  /** A dropped character in front makes no difference to the left strip. */
  lemma LStripDropsFirst(c: char, s: string, drop: char -> bool)
    requires drop(c)
    ensures LStrip([c] + s, drop) == LStrip(s, drop)
  {
    SkipLeadShift(c, s, drop, 0);
    assert ([c] + s)[1 + SkipLead(s, drop, 0)..] == s[SkipLead(s, drop, 0)..];
  }

  lemma {:induction false} SkipLeadShift(c: char, s: string, drop: char -> bool, i: nat)
    requires i <= |s| && drop(c)
    ensures SkipLead([c] + s, drop, i + 1) == 1 + SkipLead(s, drop, i)
    ensures SkipLead([c] + s, drop, 0) == SkipLead([c] + s, drop, 1)
    decreases |s| - i
  {
    var t := [c] + s;
    assert t[0] == c;
    if i < |s| {
      assert t[i + 1] == s[i];
      if drop(s[i]) {
        SkipLeadShift(c, s, drop, i + 1);
      }
    }
  }

  /** A string that starts and ends with a kept character is its own strip. */
  lemma StripByUnchanged(s: string, drop: char -> bool)
    requires s != [] ==> !drop(s[0]) && !drop(s[|s| - 1])
    ensures StripBy(s, drop) == s
  {
  }

  /** Stripping twice removes nothing more than stripping once. */
  lemma StripIdempotent(s: string)
    ensures Strip(Strip(s)) == Strip(s)
  {
    StripByUnchanged(Strip(s), IsSpace);
  }

  /** Stripping only removes characters: a character absent from `s` is
      absent from its strip. */
  lemma StripByKeepsAbsent(s: string, drop: char -> bool, c: char)
    requires c !in s
    ensures c !in StripBy(s, drop)
  {
    var l := LStrip(s, drop);
    var r := RStrip(l, drop);
    assert forall i :: 0 <= i < |r| ==> r[i] == s[|s| - |l| + i];
  }

  /** A suffix that neither starts nor ends with a dropped character survives
      stripping, whatever precedes it. */
  lemma StripByKeepsSuffix(p: string, d: string, drop: char -> bool)
    requires d != [] && !drop(d[0]) && !drop(d[|d| - 1])
    ensures var r := StripBy(p + d, drop); |r| >= |d| && r[|r| - |d|..] == d
  {
    var s := p + d;
    var l := LStrip(s, drop);
    assert s[|p|] == d[0];
    assert |s| - |l| <= |p|;
    assert l[|l| - |d|..] == d;
    assert l[|l| - 1] == d[|d| - 1];
    assert RStrip(l, drop) == l;
  }

  /** A string enclosed in one dropped character on each side strips back
      to itself, when it neither starts nor ends with a dropped character. */
  lemma StripByEnclosed(v: string, c: char, drop: char -> bool)
    requires drop(c)
    requires v != [] ==> !drop(v[0]) && !drop(v[|v| - 1])
    ensures StripBy([c] + v + [c], drop) == v
  {
    var s := [c] + v + [c];
    if v == [] {
      assert forall i :: 0 <= i < |s| ==> s[i] == c;
    } else {
      var l := LStrip(s, drop);
      assert s[1] == v[0];
      assert drop(s[0]) && !drop(s[1]);
      assert l == s[1..];
      assert l == v + [c];
      var r := RStrip(l, drop);
      assert l[|v| - 1] == v[|v| - 1];
      assert drop(l[|l| - 1]);
      assert r == l[..|v|];
    }
  }

  /** Index of the first `c` in `s`, or `|s|` when there is none. */
  function Find(s: string, c: char): (i: nat)
    ensures i <= |s|
    ensures i < |s| ==> s[i] == c
    ensures forall k :: 0 <= k < i ==> s[k] != c
  {
    if s == [] then 0
    else if s[0] == c then 0
    else 1 + Find(s[1..], c)
  }

  /** A character that occurs is found. */
  lemma FindPresent(s: string, c: char)
    requires c in s
    ensures Find(s, c) < |s| && s[Find(s, c)] == c
  {
    var k :| 0 <= k < |s| && s[k] == c;
  }

  /** No `c` comes before the first `c`. */
  lemma FindPrefixAbsent(s: string, c: char)
    ensures c !in s[..Find(s, c)]
  {
    var p := s[..Find(s, c)];
    assert forall k :: 0 <= k < |p| ==> p[k] == s[k];
  }

  /** `sep.join(parts)`. */
  function Join(parts: seq<string>, sep: string): (r: string)
    ensures parts != [] ==> parts[0] <= r
  {
    if |parts| == 0 then ""
    else if |parts| == 1 then parts[0]
    else parts[0] + sep + Join(parts[1..], sep)
  }

  /** `s.split(sep)` for a one-character separator: the maximal pieces of `s`
      between occurrences of `sep`, always at least one. */
  function Split(s: string, sep: char): (r: seq<string>)
    ensures |r| >= 1
    ensures forall i :: 0 <= i < |r| ==> sep !in r[i]
    decreases |s|
  {
    var i := Find(s, sep);
    if i == |s| then [s] else [s[..i]] + Split(s[i + 1..], sep)
  }

  /** Splitting a join on its separator recovers the parts when no part
      contains the separator. */
  lemma {:induction false} SplitJoin(parts: seq<string>, sep: char)
    requires |parts| >= 1
    requires forall i :: 0 <= i < |parts| ==> sep !in parts[i]
    ensures Split(Join(parts, [sep]), sep) == parts
  {
    var s := Join(parts, [sep]);
    var p := parts[0];
    if |parts| == 1 {
      assert Find(s, sep) == |s|;
    } else {
      var rest := Join(parts[1..], [sep]);
      assert s == p + [sep] + rest;
      SplitAtFirst(p, sep, rest);
      SplitJoin(parts[1..], sep);
    }
  }

  /** Splitting at the first separator. */
  lemma SplitAtFirst(p: string, sep: char, rest: string)
    requires sep !in p
    ensures Split(p + [sep] + rest, sep) == [p] + Split(rest, sep)
  {
    var s := p + [sep] + rest;
    var i := Find(s, sep);
    assert s[|p|] == sep;
    assert i == |p|;
    assert s[..i] == p;
    assert s[i + 1..] == rest;
  }

  /** `s[:n]` for a non-negative `n`. */
  function Take(s: string, n: nat): (r: string)
    ensures |r| <= n && r <= s
    ensures |s| <= n ==> r == s
  {
    if |s| <= n then s else s[..n]
  }

  function Digit(d: nat): char
    requires d < 10
  {
    (48 + d) as char
  }

  function NatToString(n: nat): string
    decreases n
  {
    if n < 10 then [Digit(n)] else NatToString(n / 10) + [Digit(n % 10)]
  }

  /** `str(i)` for a Python `int`: decimal digits, with a leading `-` when negative. */
  function IntToString(i: int): string {
    if i < 0 then "-" + NatToString(-i) else NatToString(i)
  }

  predicate IsDigit(c: char) {
    '0' <= c <= '9'
  }

  predicate EndsWith(s: string, suffix: string) {
    |suffix| <= |s| && s[|s| - |suffix|..] == suffix
  }
}
